=== FILE: README.md ===
# Gossip membership and a quorum-replicated key-value store, in Dafny

This project models the two protocol cores of a distributed-systems simulator
node:

- **MP1Node**, gossip-style failure detection. A node joins through an
  introducer and keeps a membership list (`memberList`) with an address index
  (`nodetable`). It merges the (heartbeat, address) pairs that peers gossip
  and evicts peers that have been silent too long. Each round it gossips the
  entries not older than TFAIL, plus its own pair, to up to two randomly
  picked list entries. A one-entry list gossips to that entry only. With two
  or more entries the two picks are different slots of the list. They are
  different peers only while the index is exact; a duplicate left by
  `joinreq` can make both picks the same peer.
- **MP2Node**, a key-value store on a consistent-hashing ring. Every key lives
  on three consecutive ring nodes. A client operation fans out to the three
  replicas and registers a transaction record. The transaction succeeds at
  two successful replies and fails at three replies or after a timeout. When
  the ring changes, every stored key is re-replicated, and keys a node is no
  longer responsible for are dropped.

Modules, one per component:

| module | file | contents |
|---|---|---|
| `Fixed` | fixed.dfy | `short`/`int`/`long` ranges, two's-complement little-endian encoding, `long` wrap-around |
| `Wire` | wire.dfy | byte layout of JOINREQ and HEARTBEAT messages and of the gossip pairs |
| `Membership` | membership.dfy | `initThisNode`, `introduceSelfToGroup`, `recvCallBack`, `updatetables`, `joinreq`, `sendML`, `nodeLoopOps`, `nodeLoop` |
| `Ring` | ring.dfy | the ring sort and `findNodes` |
| `Store` | store.dfy | the local table `ht` and its four server-side operations |
| `Dht` | dht.dfy | client operations, request handling, REPLY/READREPLY bookkeeping, `logtrans`, `ReplicateKey`, the timeout sweep, `stabilizationProtocol`, `updateRing` |

Modelling choices:

- **State is immutable.** Operations return the new state together with the
  packets or messages they send.
- **Inputs are parameters.** `std::hash`, `rand()` and the simulation clock
  become parameters: `keyHash`/`addrHash`, `r1`/`r2` and `now`.
- **Membership messages are modelled at byte level.** The model assumes
  little-endian `memcpy` layout: a 4-byte header, an 8-byte `long` and a
  6-byte address (a 4-byte id, then a 2-byte port).
- **DHT messages are a tagged datatype.** Their string serialisation is not
  part of this model.
- **The transaction counter is per node.** The source's `g_transID` is one
  process-wide counter. Here it is the field `nextId` of each node.
- **Successor slots avoid the division.** `findNodes` computes
  `(i + d) % size`; the model computes the same slot with one comparison
  (`Ring.Slot`), and `Ring.SlotIsMod` proves the two equal.
- **The transaction queue is a field.** The FIFO `myq` is the sequence
  `queue`.

Behaviour the model keeps as the source has it:

- `joinreq` appends a second entry for a peer it already knows. `nodetable`
  keeps the old index, so the table no longer indexes every entry
  (`Membership.JoinOfKnownPeerDuplicates`).
- `clientUpdate` files its transaction as a "create"
  (`Dht.UpdateIsRecordedAsCreate`).
- The timeout sweep empties the whole queue, including ids that have not
  timed out yet. A timed-out record is logged as failed but never erased
  (`Dht.TimeoutSweep`).
- A successful READREPLY overwrites the record's value every time it arrives
  (`Dht.Tally`, `Dht.HandleMessage`).
- `logtrans` re-runs `ReplicateKey` for a "replicate" record after success
  as well as after failure (mp2/MP2Node.cpp:432-434).
- `ReplicateKey` reads `ht[key]` to build its CREATE messages. For a key that
  is no longer stored, this inserts an empty value, and the model does the
  same.
- A CREATE request for a key that is already stored is answered with success
  and does not change the table.

## Model

| member | source | states |
|---|---|---|
| Fixed.WrapIncrement | mp2/MP1Node.cpp:190 | `heartbeat++` on a `long` adds one below the maximum; at the maximum, where C++ leaves signed overflow undefined, it is modelled as a two's-complement wrap to a smaller value |
| Fixed.SignedRoundTrip | mp2/MP1Node.cpp:140-141 | decoding the two's-complement little-endian bytes of a value of any width gives the value back |
| Fixed.UnsignedReencode | mp2/MP1Node.cpp:249 | every byte string is the little-endian encoding of the unsigned value it decodes to |
| Fixed.SignedReencode | mp2/MP1Node.cpp:249 | every non-empty byte string is the two's-complement encoding of the value it decodes to, so two buffers of one width never decode to the same integer |
| Fixed.Int64RoundTrip | mp2/MP1Node.cpp:249 | an 8-byte `long` copied into a buffer and read back is unchanged |
| Wire.DecodeHeader | mp2/MP1Node.cpp:231-233 | a buffer has a message type only if it holds a whole header whose code is a known type |
| Wire.HeaderRoundTrip | mp2/MP1Node.cpp:232 | the type written in a header is the type read back, whatever follows it |
| Wire.AddrRoundTrip | mp2/MP1Node.cpp:250-255 | the 6-byte address (id, then port) decodes to the address that was encoded |
| Wire.DecodePairs | mp2/MP1Node.cpp:246-273 | the walk after the header decodes exactly when the bytes split into whole 14-byte pairs, one pair per 14 bytes |
| Wire.PairsRoundTrip | mp2/MP1Node.cpp:246-273 | decoding an encoded run of (heartbeat, address) pairs yields the same pairs in the same order |
| Wire.JoinReqRoundTrip | mp2/MP1Node.cpp:134-141 | a JOINREQ is read, at the offsets `joinreq` uses, as its sender's address and heartbeat |
| Wire.HeartbeatRoundTrip | mp2/MP1Node.cpp:311-331 | a HEARTBEAT decodes to the sender's own pair followed by the gossiped pairs |
| Membership.InitThisNode | mp2/MP1Node.cpp:95-113 | a started node is alive, outside the group, at heartbeat 0, with an empty and consistent table |
| Membership.IntroduceSelfToGroup | mp2/MP1Node.cpp:120-156 | the introducer joins its own group and sends nothing; any other node sends one JOINREQ with its address and heartbeat to the introducer and stays outside the group |
| Membership.MergePair | mp2/MP1Node.cpp:258-271 | a pair about self changes nothing; an unknown peer is appended with its heartbeat and the current time and indexed at the end; a known peer is refreshed only on a strictly larger heartbeat; the index stays valid and nothing known is lost; every entry is the old one or was written from the pair at the current time |
| Membership.MergePairRecordsPeer | mp2/MP1Node.cpp:262-270 | after a pair from another node is merged, that node is indexed with at least the pair's heartbeat |
| Membership.MergePairIdempotent | mp2/MP1Node.cpp:262-271 | merging the same pair again, at any later time, changes nothing |
| Membership.MergeAll | mp2/MP1Node.cpp:247-273 | merging a run of pairs keeps the index valid, keeps every known entry in its place with a heartbeat that never goes down, never indexes self, and leaves every pair from another node indexed with at least that pair's heartbeat; nothing else is written: each entry is the old one at that index or a pair of the run stamped with the current time, and each newly indexed address is named by a pair |
| Membership.MergeAllStep | mp2/MP1Node.cpp:249-272 | merging the first pair and then the rest keeps every one of these facts for the whole run |
| Membership.FromPairsTransitive | mp2/MP1Node.cpp:249-272 | what one pair wrote followed by what the rest wrote is what the whole run wrote |
| Membership.UpdateTables | mp2/MP1Node.cpp:244-276 | a buffer that does not split into whole pairs after the header leaves the node unchanged; otherwise every pair from another node ends indexed with at least its heartbeat, and every entry is the old one or one of the decoded pairs stamped with the current time; in both cases the index stays valid, self is never indexed and what is known only grows |
| Membership.HeartbeatsNeverDecrease | mp2/MP1Node.cpp:268-270 | for any message, a known address keeps its index and its stored heartbeat does not decrease |
| Membership.Gossiped | mp2/MP1Node.cpp:319-331 | the payload holds a pair for every entry not older than TFAIL and nothing else |
| Membership.GossipedSize | mp2/MP1Node.cpp:321-323 | each entry older than TFAIL removes exactly one pair from the payload |
| Membership.GossipedAppend | mp2/MP1Node.cpp:319-332 | entries are gossiped in list order |
| Membership.SendML | mp2/MP1Node.cpp:313-323 | the message size is the header plus one pair per entry plus one for the sender, minus one pair per skipped entry |
| Membership.SendMLDecodes | mp2/MP1Node.cpp:311-331 | what `updatetables` reads from a `sendML` buffer is the sender's own pair first, then the fresh entries in order |
| Membership.OnJoinReq | mp2/MP1Node.cpp:283-304 | a join appends exactly one entry with the requester's id, port, heartbeat and the current time, and sends the new list back to the requester |
| Membership.AppendPeer | mp2/MP1Node.cpp:300-301 | the requester is always appended at the end; it is indexed there only when its address was not indexed yet; the index stays valid |
| Membership.JoinOfNewPeerKeepsConsistent | mp2/MP1Node.cpp:300-301 | a join from an unknown address keeps the table the exact inverse of the list |
| Membership.JoinOfKnownPeerDuplicates | mp2/MP1Node.cpp:300-301 | a join from a known address leaves an entry the table does not index |
| Membership.RecvCallBack | mp2/MP1Node.cpp:227-239 | the node is in the group afterwards exactly when it was before or the message is a HEARTBEAT; a readable JOINREQ is answered with exactly one `sendML` packet to its sender, and nothing else produces a packet; a HEARTBEAT leaves every pair it carries from another node indexed with at least that pair's heartbeat |
| Membership.CheckMessages | mp2/MP1Node.cpp:208-220 | after the queue is drained the node is in the group exactly when it was before or some message is a HEARTBEAT; every pair from another node in a readable HEARTBEAT is recorded; the packets go one per readable JOINREQ, to its sender, in queue order |
| Membership.RequestersListed | mp2/MP1Node.cpp:208-220 | an address is answered exactly when some readable JOINREQ of the queue came from it |
| Membership.GroupStep | mp2/MP1Node.cpp:213-218 | handling one more message keeps the group rule for the longer queue |
| Membership.RecordsStep | mp2/MP1Node.cpp:213-218 | pairs recorded by the first message stay recorded while the rest is handled |
| Membership.JoinsStep | mp2/MP1Node.cpp:213-218 | the first message's answer followed by the rest's answers the whole queue's JOINREQs |
| Membership.SwapRemoveMultiset | mp2/MP1Node.cpp:356-357 | moving the last entry into slot i and popping the back removes exactly the entry at i |
| Membership.EvictAt | mp2/MP1Node.cpp:355-361 | one guarded eviction removes exactly the entry at i, keeps the entries before i, and keeps the table valid and, if it was, the exact inverse of the list |
| Membership.EvictAtAsWritten | mp2/MP1Node.cpp:355-361 | the unguarded step reads past the end exactly when the evicted entry was the last one |
| Membership.EvictLastEntryReadsPastEnd | mp2/MP1Node.cpp:356-358 | evicting the only entry of a one-entry list reads past the end as written; the guarded step empties the list |
| Membership.EvictAtAgreesBeforeLast | mp2/MP1Node.cpp:355-361 | away from the last index, the guarded step and the written step agree |
| Membership.Evict | mp2/MP1Node.cpp:348-364 | after the loop no entry is older than TREMOVE, every other entry is kept with its multiplicity, and the table stays valid (and exact if it was) |
| Membership.PickPeers | mp2/MP1Node.cpp:366-379 | no peer for an empty list, the one entry for a list of one, otherwise two different indices inside the list |
| Membership.SecondPickCoversOthers | mp2/MP1Node.cpp:374 | every index other than the first pick is the second pick for some random draw |
| Membership.NodeLoopOps | mp2/MP1Node.cpp:347-381 | after eviction, gossip goes to min(2, list size) peers, each a listed member, two different peers when the table is exact, each carrying the post-eviction list |
| Membership.NodeLoop | mp2/MP1Node.cpp:182-201 | a failed node does nothing; otherwise the heartbeat goes up by one, the node is in the group exactly when it was before or its queue held a HEARTBEAT, its replies are exactly the packets of `checkMessages`, and gossip is sent only in the group |
| Membership.JoinReqReceived | mp2/MP1Node.cpp:283-304 | the introducer lists a JOINREQ's sender with the heartbeat it sent and the current time, and answers it with a `sendML` buffer |
| Membership.GossipReceived | mp2/MP1Node.cpp:234-236 | any `sendML` buffer from another node puts the receiver in the group and makes it know the sender |
| Membership.JoinHandshake | mp2/MP1Node.cpp:120-156 | a JOINREQ makes the introducer list the joiner with the heartbeat it sent and answer with a HEARTBEAT; that answer puts the joiner in the group, knowing the introducer |
| Ring.Position | mp2/MP2Node.cpp:98-101 | every key position lies on the ring |
| Ring.SortByHash | mp2/MP2Node.cpp:49 | the ring is a permutation of the membership nodes in increasing hash order |
| Ring.InsertSorted | mp2/MP2Node.cpp:49 | inserting a node into a sorted ring keeps it sorted |
| Ring.FirstAtLeast | mp2/MP2Node.cpp:460-463 | the scan stops at the first index at or after its start whose hash reaches the key's position |
| Ring.PrimaryIndex | mp2/MP2Node.cpp:453-463 | the primary is slot 0 for a wrapping key, else the first slot from 1 on whose hash reaches the key's position |
| Ring.FindNodes | mp2/MP2Node.cpp:448-471 | no replicas on a ring of fewer than three nodes, exactly three otherwise |
| Ring.FindNodesPicks | mp2/MP2Node.cpp:448-471 | on a ring of three or more nodes the replicas are the first three nodes for a wrapping key, and otherwise the primary and the slots `(i + 1) % size` and `(i + 2) % size` after it |
| Ring.SlotIsMod | mp2/MP2Node.cpp:464-466 | the successor step used for the replicas equals the source's `(i + d) % size` |
| Ring.ReplicaSlotsDistinct | mp2/MP2Node.cpp:464-466 | the three replica slots are distinct for a ring of at least three nodes |
| Ring.FindNodesDistinct | mp2/MP2Node.cpp:448-471 | on a ring without repeated nodes the three replicas are different nodes |
| Ring.PrimaryIsSuccessor | mp2/MP2Node.cpp:460-463 | for a key that does not wrap, the primary's predecessor lies strictly before the key and the primary at or after it |
| Ring.PrimaryUnique | mp2/MP2Node.cpp:460-463 | on a sorted ring that successor is the only such slot, so nodes sharing a ring agree on replicas |
| Ring.WrapMeansNoNodeBetween | mp2/MP2Node.cpp:453 | on a sorted ring a wrapping key lies at or before every node or after every node |
| Store.CreateKeyValue | mp2/MP2Node.cpp:237-245 | create always reports success, never overwrites a stored value, and stores the value under a fresh key |
| Store.ReadKey | mp2/MP2Node.cpp:254-264 | a read returns the stored value, or "" on a miss |
| Store.UpdateKeyValue | mp2/MP2Node.cpp:273-283 | update succeeds exactly on a stored key, then changes only that key's value; on a miss the table is unchanged |
| Store.DeleteKey | mp2/MP2Node.cpp:292-302 | delete succeeds exactly on a stored key, then removes only that key; on a miss the table is unchanged |
| Store.CreateThenRead | mp2/MP2Node.cpp:237-264 | a value created on a fresh key is what a later read returns, and a second create changes nothing |
| Store.UpdateThenRead | mp2/MP2Node.cpp:254-283 | a read after an update sees the new value exactly when the key existed; other keys read as before |
| Store.DeleteThenRead | mp2/MP2Node.cpp:254-302 | after a delete the key reads as a miss and a second delete fails; other keys read as before |
| Dht.ApplyLocally | mp2/MP2Node.cpp:116-120 | a coordinator that is itself a replica runs the server-side operation on its own table and counts one reply, a success when the operation succeeded |
| Dht.ApplyTimes | mp2/MP2Node.cpp:116-121 | running the operation once per local replica slot adds one reply per slot and at most one success per slot, and keeps the record's key, type and start time |
| Dht.FanOut | mp2/MP2Node.cpp:115-125 | the request goes to every replica other than self, in replica order; the local store and record are exactly the operation run once per local slot |
| Dht.OpenRun | mp2/MP2Node.cpp:115-121 | with no local slot the opened record and the store stay as they were; with one, the store gets the operation, the record has one success exactly for a create or a stored key, and a read adopts the stored value |
| Dht.ClientRequest | mp2/MP2Node.cpp:113-227 | a client operation registers exactly one record under the current id, with the operation's key, recorded type and start time, and one reply per local slot; with no local slot it has no success and the operation's value; with one, the table gets the operation and the record has one success exactly for a create or a stored key; the request goes to every other replica; the id is queued and the counter advances by one |
| Dht.SmallRingReachesNobody | mp2/MP2Node.cpp:450 | on a ring of fewer than three nodes a client operation sends nothing and its record has no replies |
| Dht.LocalCreateCounts | mp2/MP2Node.cpp:113-128 | a create whose coordinator holds one replica of a fresh key stores the value locally, starts at one success of one reply, and sends to the other replicas |
| Dht.CreateFanOut | mp2/MP2Node.cpp:115-120 | with one local slot, the fan-out of a create stores the value and counts one success |
| Dht.UpdateIsRecordedAsCreate | mp2/MP2Node.cpp:176 | an update's record carries the type "create" |
| Dht.OnRequest | mp2/MP2Node.cpp:341-365 | a replica answers each request once, to its sender, under the request's id: create succeeds always, update and delete succeed exactly on a stored key, a read returns the stored value or "" |
| Dht.CreateThenReadReplies | mp2/MP2Node.cpp:341-365 | a replica that took a create for a fresh key answers a later read with that value |
| Dht.Tally | mp2/MP2Node.cpp:366-386 | a reply adds one reply and one success when it succeeded; a successful READREPLY's value replaces the record's value |
| Dht.OnReply | mp2/MP2Node.cpp:366-395 | an unknown id is ignored; otherwise the reply is counted. At two successes the record retires as a success, at three replies as a failure; a retired record gives exactly `logtrans`'s result on the counted record (a client outcome line, a dropped key, or a `ReplicateKey` re-run) and is then erased; every line logged is about the reply's transaction |
| Dht.LogTrans | mp2/MP2Node.cpp:412-440 | a client transaction logs its type, outcome, key and value, under its own id; "deletekey" drops the key on success; "replicate" after either outcome, and "deletekey" on failure, give exactly the result of `ReplicateKey` on the record's key |
| Dht.ReplicateKey | mp2/MP2Node.cpp:515-536 | a CREATE with the stored value goes to each other replica; one record is registered under the current id, "deletekey" exactly when self is no replica; a replica starts at one success of one reply |
| Dht.DeleteKeyCommitPurges | mp2/MP2Node.cpp:435-437 | a "deletekey" transaction that reaches two successes removes the key from the local table and is erased |
| Dht.QuorumOfThree | mp2/MP2Node.cpp:366-379 | after replies from three remote replicas the transaction is always decided, and it succeeds exactly when at least two succeeded |
| Dht.QuorumWithLocalReplica | mp2/MP2Node.cpp:366-379 | with one local success, one success among the two remote replies decides success, and none decides failure |
| Dht.ApplyReplies | mp2/MP2Node.cpp:366-379 | a run of replies keeps the id invariant and never lowers the counter; it returns the sends and log lines of all replies in order |
| Dht.RepliesFollowFeed | mp2/MP2Node.cpp:366-379 | after any run of replies the record is still open exactly when the reference one-reply-at-a-time rule reached no verdict; a client transaction logs nothing while open, and once decided logs exactly one line whose outcome is the reference verdict |
| Dht.StaysRetired | mp2/MP2Node.cpp:372-377 | a retired id never reappears, because later records get later ids, and later replies for it send and log nothing |
| Dht.HandleMessage | mp2/MP2Node.cpp:340-400 | requests are answered once, to their sender, under their id, with a READREPLY for a read and a REPLY otherwise, and log nothing; replies for unknown ids are ignored; a REPLY is counted with its success flag, and a READREPLY as a success exactly when its value is non-empty, carrying that value |
| Dht.HandleAll | mp2/MP2Node.cpp:323-401 | handling the inbox in order answers every request in it to its sender under its id, and every line it logs is about a reply that arrived |
| Dht.HandledStep | mp2/MP2Node.cpp:323-401 | the first message's answers and log lines followed by the rest's cover the whole inbox |
| Dht.InboxCountsReplies | mp2/MP2Node.cpp:323-401 | an inbox holding only REPLYs for one id is handled exactly as the run of their success flags is counted |
| Dht.InboxQuorumOfThree | mp2/MP2Node.cpp:323-401 | an inbox of three REPLYs for an open client transaction with no local reply retires it and logs exactly one line, a success exactly when at least two replies succeeded |
| Dht.SweepOne | mp2/MP2Node.cpp:405-408 | a record that has timed out is handed to `logtrans` as a failure, with exactly `logtrans`'s effect (a failure line for a client record, a `ReplicateKey` re-run for "replicate" and "deletekey"), and is not erased; anything else is popped without effect |
| Dht.TimeoutLinesOwed | mp2/MP2Node.cpp:404-409 | a line is owed exactly for a queued id whose client record has timed out, and it is that record's failure line |
| Dht.TimeoutLinesKept | mp2/MP2Node.cpp:404-409 | records stamped now have not timed out, so adding them and keeping the rest leaves the owed lines unchanged |
| Dht.SweepTail | mp2/MP2Node.cpp:404-409 | after one queued id is handled, the rest of the queue owes what it owed before |
| Dht.SweepIds | mp2/MP2Node.cpp:404-409 | the sweep erases no record and leaves every existing record unchanged; records it adds are stamped now; its log is exactly the failure lines owed for the ids, read off the records before the sweep, in queue order |
| Dht.TimeoutSweep | mp2/MP2Node.cpp:404-409 | the queue ends empty; no record is erased; records the sweep adds have not timed out; the log is exactly the failure lines owed for the queue; each timed-out "replicate" or "deletekey" record of the queue replicates its key again, with its record under the next id and its CREATEs sent, in queue order, and nothing else is sent |
| Dht.TimeoutSweepLogsOwed | mp2/MP2Node.cpp:404-409 | every queued client transaction that has timed out is logged as failed, and nothing else is logged |
| Dht.RerunKeysListed | mp2/MP2Node.cpp:404-409 | a key is replicated again exactly when a queued "replicate" or "deletekey" record about it has timed out |
| Dht.RerunKeysKept | mp2/MP2Node.cpp:404-409 | records stamped now have not timed out, so adding them and keeping the rest leaves the keys to replicate again unchanged |
| Dht.RerunRecord | mp2/MP2Node.cpp:515-536 | `ReplicateKey` on any key, stored or not, advances the counter by one, queues that id, keeps every record, adds at most that key to the table and only with the empty value, files the key's replication record, and sends its CREATEs with the value read from the table |
| Dht.SweepOneReruns | mp2/MP2Node.cpp:405-408 | one queued id replicates again exactly its key when its non-client record has timed out, and otherwise nothing |
| Dht.RerunAppend | mp2/MP2Node.cpp:404-409 | the re-runs of one stretch of the queue followed by those of the next are the re-runs of both keys' lists, under consecutive ids |
| Dht.SweepIdsReruns | mp2/MP2Node.cpp:404-409 | the sweep advances the counter by one per key it replicates again; the j-th such key has its replication record under the old counter plus j; the sends are those keys' CREATEs in queue order; the table only gains some of those keys under the empty value |
| Dht.SendsAppend | mp2/MP2Node.cpp:510-536 | the CREATEs of one list of keys followed by those of a second, numbered on from the first, are the CREATEs of both lists |
| Dht.TimedOutClientTxnLogged | mp2/MP2Node.cpp:407 | a timed-out client transaction at the head of the queue is logged as failed |
| Dht.CheckMessages | mp2/MP2Node.cpp:312-410 | handling the inbox and then sweeping empties the queue, keeps the id invariant and answers every request of the inbox; its log is the handling's lines, each about a reply that arrived, followed by the failure lines owed for the queue as handling left it; its sends are the handling's followed by the CREATEs of the keys the sweep replicates again, each with its record under the next id |
| Dht.Stabilize | mp2/MP2Node.cpp:510-514 | every stored key is visited once; the i-th gets a replication record under the counter plus i, of type "deletekey" with no replies exactly when self is none of its replicas, else "replicate" at one success of one reply; the sends are the keys' CREATEs to their other replicas, key by key; existing records and the table are unchanged |
| Dht.ReplicateStep | mp2/MP2Node.cpp:510-536 | one more `ReplicateKey` extends the stabilization's records, queue and sends by the next key |
| Dht.ReplicatedRecord | mp2/MP2Node.cpp:515-536 | `ReplicateKey` on a stored key keeps every record, files the key's replication record under the current id, and sends the key's CREATEs under that id |
| Dht.ExtendSends | mp2/MP2Node.cpp:510-514 | the sends of a stabilization extended by one key are the earlier sends followed by that key's CREATEs under the next id |
| Dht.EnumerateStep | mp2/MP2Node.cpp:511 | visiting one more remaining key keeps the visited keys a repeat-free listing of the keys not remaining |
| Dht.MembershipNodes | mp2/MP2Node.cpp:72-87 | the ring candidates are one node per membership entry, in list order, then this node |
| Dht.UpdateRing | mp2/MP2Node.cpp:35-60 | the ring is replaced by the sorted membership, and stabilization runs, exactly when that list has more than one node and differs from the current ring; the stabilization's records and sends are those of `Dht.Stabilize` on the new ring; otherwise nothing changes |

## Left out

- Network I/O (`ENsend`, `recvLoop`, `enqueueWrapper`) is not modelled. Sends are returned as lists, and received messages are given as an inbox sequence.
- Logging (`log->...`, `cout`) is not modelled. The coordinator-side lines of `logtrans` are returned as `Event`s; replica-side log lines are omitted.
- The string serialisation of DHT `Message`s is not part of this model. Messages are a tagged datatype.
- `std::hash` is an opaque parameter, reduced modulo `RING_SIZE`. `Node::getHashCode` and `Node::operator<` are taken as comparing the hash field.
- `rand()` and `par->getcurrtime()` are parameters.
- Header constants are assumed because MP1Node.h and MP2Node.h are not part of this model: the `MsgTypes` codes (JOINREQ 0, JOINREP 1, HEARTBEAT 2), TFAIL = 5, TREMOVE = 20 and RING_SIZE = 512.
- The `transactions` constructor is assumed to start `success` and `count` at 0, for the same reason; the source's increments (mp2/MP2Node.cpp:119-120, 531-532) only make sense from there.
- A membership buffer too short for what the source reads is rejected (`None`) rather than read past its end.
- Ring.SortByHash: equal hash codes keep their list order. `std::sort` does not fix the order of ties.
- Dht.Stabilize: the keys are visited in an unspecified order, returned as `order`. The source visits them in its map's iteration order.
- The per-process `g_transID` is a per-node counter, so ids from different nodes are not globally unique in the model.
- Timestamps and transaction ids are unbounded integers. The 32-bit `int` wrap-around of ids and times is not modelled.
- Bootstrap and teardown plumbing (`nodeStart`, `finishUpThisNode`, constructors, address helpers) is not modelled.

## Findings

| source | as written | input that shows it | evidently intended | confidence | as-written member | corrected member |
|---|---|---|---|---|---|---|
| mp2/MP1Node.cpp:356-361 | after swapping the last entry into slot i and `pop_back`, the loop reads `memberList[i]` to re-index it, even when i was the last index | a list with one entry, older than TREMOVE: i = 0 is evicted, the list becomes empty, and `memberList[0]` is read | re-index the moved entry only when one was moved (i below the old last index) | high, not executed | Membership.EvictAtAsWritten | Membership.EvictAt |

=== FILE: dht.dfy ===
/**
  The replicated key-value layer of one node (mp2/MP2Node.cpp): client
  operations that fan out to the three replicas of a key, the server side that
  answers them, the quorum bookkeeping that retires a transaction after two
  successes or three replies, the timeout sweep, and the stabilization that
  re-replicates every stored key when the ring changes.

  The transaction map `trans_map`, the id counter `g_transID` and the FIFO
  `myq` are fields of `Node`.  Messages are a tagged datatype; `std::hash` is
  the parameter `keyHash` (and `addrHash` for ring nodes); the clock is
  `now`; sends and coordinator-side log lines are returned as lists.
 */
module Dht {
  import opened Wire
  import opened Ring
  import opened Store
  import Membership

  /** Age at which the sweep gives up on a transaction. */
  const TransTimeout := 15

  /** The `type` string of a transaction record. */
  datatype Kind = CreateKind | ReadKind | UpdateKind | DeleteKind | ReplicateKind | DeleteKeyKind

  predicate IsClientKind(k: Kind) {
    k == CreateKind || k == ReadKind || k == UpdateKind || k == DeleteKind
  }

  /** `transactions`: key, value, type, start time and the running success
      and reply counts. */
  datatype Txn = Txn(key: string, value: string, kind: Kind, time: int, success: int, count: int)

  datatype ReplicaType = Primary | Secondary | Tertiary

  /** `Message`, by type. */
  datatype Msg =
    | CreateMsg(id: int, sender: Addr, key: string, value: string, replica: ReplicaType)
    | ReadMsg(id: int, sender: Addr, key: string)
    | UpdateMsg(id: int, sender: Addr, key: string, value: string, replica: ReplicaType)
    | DeleteMsg(id: int, sender: Addr, key: string)
    | ReplyMsg(id: int, sender: Addr, success: bool)
    | ReadReplyMsg(id: int, sender: Addr, value: string)

  predicate IsRequest(m: Msg) {
    m.CreateMsg? || m.ReadMsg? || m.UpdateMsg? || m.DeleteMsg?
  }

  datatype Send = Send(to: Addr, msg: Msg)

  /** A coordinator-side log line written by `logtrans`. */
  datatype Event = Logged(kind: Kind, ok: bool, id: int, key: string, value: string)

  /** The state of `MP2Node`. */
  datatype Node = Node(
    self: Addr,
    ring: seq<RingNode>,
    store: Table,
    txns: map<int, Txn>,
    nextId: int,
    queue: seq<int>)

  /** New state, messages sent and lines logged. */
  datatype Step = Step(node: Node, sent: seq<Send>, log: seq<Event>)

  /** Every registered transaction id was issued before the counter. */
  ghost predicate Valid(n: Node) {
    forall id :: id in n.txns ==> id < n.nextId
  }

  /** The parts of a node that message handling never changes. */
  ghost predicate SameFrame(n: Node, r: Node) {
    r.self == n.self && r.ring == n.ring
  }

  /** New records only appear at ids at or above the old counter, and the
      counter never goes back. */
  ghost predicate Fresh(n: Node, r: Node) {
    && r.nextId >= n.nextId
    && forall id :: id in r.txns && id !in n.txns ==> id >= n.nextId
  }

  /** Existing records are untouched and every added record is stamped
      `now`. */
  ghost predicate Keeps(n: Node, r: Node, now: int) {
    && (forall i :: i in n.txns ==> i in r.txns && r.txns[i] == n.txns[i])
    && (forall i :: i in r.txns && i !in n.txns ==> r.txns[i].time == now)
  }

  /** The replicas of a key on this node's current ring. */
  function Replicas(ring: seq<RingNode>, keyHash: string -> nat, key: string): seq<RingNode> {
    FindNodes(ring, Position(keyHash(key)))
  }

  /** How many of the replica slots are this node. */
  function SelfCount(self: Addr, replicas: seq<RingNode>): (c: nat)
    ensures c <= |replicas|
    ensures c == 0 <==> forall i :: 0 <= i < |replicas| ==> replicas[i].addr != self
  {
    if |replicas| == 0 then 0
    else (if replicas[0].addr == self then 1 else 0) + SelfCount(self, replicas[1..])
  }

  /** The replica addresses other than this node, in replica order. */
  function Others(self: Addr, replicas: seq<RingNode>): (r: seq<Addr>)
    ensures |r| + SelfCount(self, replicas) == |replicas|
    ensures forall a :: a in r ==> a != self
  {
    if |replicas| == 0 then []
    else (if replicas[0].addr == self then [] else [replicas[0].addr]) + Others(self, replicas[1..])
  }

  /** One copy of `msg` to each address, in order. */
  function Broadcast(to: seq<Addr>, msg: Msg): (r: seq<Send>)
    ensures |r| == |to|
    ensures forall i :: 0 <= i < |r| ==> r[i] == Send(to[i], msg)
  {
    if |to| == 0 then [] else [Send(to[0], msg)] + Broadcast(to[1..], msg)
  }

  /** `trans_map.insert` under the current id: the record already there, if
      the id is taken, else the new one. */
  function Opened(n: Node, t: Txn): (r: Txn)
    ensures n.nextId !in n.txns ==> r == t
    ensures n.nextId in n.txns ==> r == n.txns[n.nextId]
  {
    if n.nextId in n.txns then n.txns[n.nextId] else t
  }

  /** The record stored under the current id, the id pushed on the sweep
      queue, the counter advanced by one. */
  function Register(n: Node, t: Txn): (r: Node)
    ensures SameFrame(n, r) && Fresh(n, r) && r.store == n.store
    ensures r.nextId == n.nextId + 1 && r.queue == n.queue + [n.nextId]
    ensures r.txns.Keys == n.txns.Keys + {n.nextId} && r.txns[n.nextId] == t
    ensures forall i :: i in n.txns && i != n.nextId ==> r.txns[i] == n.txns[i]
    ensures Valid(n) ==> Valid(r)
  {
    n.(txns := n.txns[n.nextId := t], nextId := n.nextId + 1, queue := n.queue + [n.nextId])
  }

  /** The ids `from`, `from + 1`, ... of `count` consecutive transactions. */
  function Ids(from: int, count: nat): (r: seq<int>)
    ensures |r| == count
    ensures forall i :: 0 <= i < count ==> r[i] == from + i
    decreases count
  {
    if count == 0 then [] else [from] + Ids(from + 1, count - 1)
  }

  lemma {:induction false} IdsSnoc(from: int, count: nat)
    ensures Ids(from, count + 1) == Ids(from, count) + [from + count]
    decreases count
  {
    if count > 0 {
      IdsSnoc(from + 1, count - 1);
    }
  }

  // ---------------------------------------------------------------------
  // Client side: `clientCreate`, `clientRead`, `clientUpdate`, `clientDelete`

  datatype ClientOp =
    | Create(key: string, value: string)
    | Read(key: string)
    | Update(key: string, value: string)
    | Delete(key: string)

  /** The type the source records for each operation; `clientUpdate` records
      "create", not "update". */
  function RecordKind(op: ClientOp): Kind {
    match op
    case Create(_, _) => CreateKind
    case Read(_) => ReadKind
    case Update(_, _) => CreateKind
    case Delete(_) => DeleteKind
  }

  function RecordValue(op: ClientOp): string {
    match op
    case Create(_, v) => v
    case Update(_, v) => v
    case _ => ""
  }

  /** The request sent to a remote replica; create and update are always
      tagged PRIMARY. */
  function Request(op: ClientOp, id: int, self: Addr): Msg {
    match op
    case Create(k, v) => CreateMsg(id, self, k, v, Primary)
    case Read(k) => ReadMsg(id, self, k)
    case Update(k, v) => UpdateMsg(id, self, k, v, Primary)
    case Delete(k) => DeleteMsg(id, self, k)
  }

  /** The local store and the open record, as the fan-out goes along. */
  datatype Local = Local(store: Table, txn: Txn)

  /** The coordinator is itself a replica: it runs the operation on its own
      store and counts one reply, a success when the operation succeeded
      (a local create always does; a read adopts the stored value). */
  function ApplyLocally(op: ClientOp, acc: Local): (r: Local)
    ensures r.txn == acc.txn.(value := r.txn.value, success := r.txn.success, count := acc.txn.count + 1)
    ensures op.Create? ==> r.store == CreateKeyValue(acc.store, op.key, op.value).table && r.txn.success == acc.txn.success + 1
    ensures op.Read? ==> r.store == acc.store && r.txn.success == acc.txn.success + (if op.key in acc.store then 1 else 0)
    ensures op.Read? && op.key in acc.store ==> r.txn.value == acc.store[op.key]
    ensures op.Update? ==> var u := UpdateKeyValue(acc.store, op.key, op.value);
              r.store == u.table && r.txn.success == acc.txn.success + (if u.ok then 1 else 0)
    ensures op.Delete? ==> var d := DeleteKey(acc.store, op.key);
              r.store == d.table && r.txn.success == acc.txn.success + (if d.ok then 1 else 0)
    ensures !op.Read? ==> r.txn.value == acc.txn.value
  {
    var t := acc.txn;
    match op
    case Create(k, v) =>
      Local(CreateKeyValue(acc.store, k, v).table, t.(success := t.success + 1, count := t.count + 1))
    case Read(k) =>
      if k in acc.store then Local(acc.store, t.(value := acc.store[k], success := t.success + 1, count := t.count + 1))
      else Local(acc.store, t.(count := t.count + 1))
    case Update(k, v) =>
      var u := UpdateKeyValue(acc.store, k, v);
      Local(u.table, t.(success := t.success + (if u.ok then 1 else 0), count := t.count + 1))
    case Delete(k) =>
      var d := DeleteKey(acc.store, k);
      Local(d.table, t.(success := t.success + (if d.ok then 1 else 0), count := t.count + 1))
  }

  /** The local effect of `k` replica slots held by the coordinator, one
      after another. */
  function ApplyTimes(op: ClientOp, acc: Local, k: nat): (r: Local)
    ensures r.txn.count == acc.txn.count + k
    ensures acc.txn.success <= r.txn.success <= acc.txn.success + k
    ensures r.txn.key == acc.txn.key && r.txn.kind == acc.txn.kind && r.txn.time == acc.txn.time
    decreases k
  {
    if k == 0 then acc else ApplyTimes(op, ApplyLocally(op, acc), k - 1)
  }

  /** A freshly opened record run on the coordinator's `c` own slots: no
      slot leaves record and store as they were; one slot is one local run,
      whose success and value follow the store. */
  lemma OpenRun(op: ClientOp, store: Table, t: Txn, c: nat)
    requires t.success == 0 && t.count == 0 && t.value == RecordValue(op)
    ensures var l := ApplyTimes(op, Local(store, t), c);
      && (c == 0 ==> l == Local(store, t))
      && (c == 1 ==>
            && l.store == ApplyLocally(op, Local(store, l.txn)).store
            && l.txn.success == (if op.Create? || op.key in store then 1 else 0)
            && l.txn.value == (if op.Read? && op.key in store then store[op.key] else RecordValue(op)))
  {
    if c == 1 {
      assert ApplyTimes(op, Local(store, t), 1) == ApplyLocally(op, Local(store, t));
    }
  }

  lemma ApplyTimesStep(op: ClientOp, acc: Local, k: nat)
    ensures ApplyTimes(op, acc, k + 1) == ApplyTimes(op, ApplyLocally(op, acc), k)
  {
  }

  /** The first replica slot either is this node, counted and skipped, or is
      another node, sent to first. */
  lemma SlotStep(self: Addr, replicas: seq<RingNode>)
    requires |replicas| > 0
    ensures replicas[0].addr == self ==>
              && SelfCount(self, replicas) == SelfCount(self, replicas[1..]) + 1
              && Others(self, replicas) == Others(self, replicas[1..])
    ensures replicas[0].addr != self ==>
              && SelfCount(self, replicas) == SelfCount(self, replicas[1..])
              && Others(self, replicas) == [replicas[0].addr] + Others(self, replicas[1..])
  {
  }

  lemma BroadcastCons(a: Addr, to: seq<Addr>, msg: Msg)
    ensures Broadcast([a] + to, msg) == [Send(a, msg)] + Broadcast(to, msg)
  {
    assert ([a] + to)[1..] == to;
  }

  datatype Spread = Spread(local: Local, sent: seq<Send>)

  /** The loop over `findNodes`' result: run locally on this node's slots,
      send the request to every other replica. */
  function FanOut(self: Addr, replicas: seq<RingNode>, op: ClientOp, id: int, acc: Local): (r: Spread)
    ensures r.sent == Broadcast(Others(self, replicas), Request(op, id, self))
    ensures r.local == ApplyTimes(op, acc, SelfCount(self, replicas))
    decreases |replicas|
  {
    if |replicas| == 0 then Spread(acc, [])
    else if replicas[0].addr == self then
      SlotStep(self, replicas);
      ApplyTimesStep(op, acc, SelfCount(self, replicas[1..]));
      FanOut(self, replicas[1..], op, id, ApplyLocally(op, acc))
    else
      var rest := FanOut(self, replicas[1..], op, id, acc);
      SlotStep(self, replicas);
      BroadcastCons(replicas[0].addr, Others(self, replicas[1..]), Request(op, id, self));
      Spread(rest.local, [Send(replicas[0].addr, Request(op, id, self))] + rest.sent)
  }

  /** A client operation: register one record under the current id (before
      any reply can arrive), fan out, queue the id for the timeout sweep and
      advance the counter by one. */
  function ClientRequest(n: Node, op: ClientOp, keyHash: string -> nat, now: int): (r: Step)
    ensures SameFrame(n, r.node) && Fresh(n, r.node) && r.log == []
    ensures r.node.nextId == n.nextId + 1
    ensures r.node.queue == n.queue + [n.nextId]
    ensures r.node.txns.Keys == n.txns.Keys + {n.nextId}
    ensures forall id :: id in n.txns && id != n.nextId ==> r.node.txns[id] == n.txns[id]
    ensures Valid(n) ==> Valid(r.node)
    ensures var replicas := Replicas(n.ring, keyHash, op.key);
      && r.sent == Broadcast(Others(n.self, replicas), Request(op, n.nextId, n.self))
      && (SelfCount(n.self, replicas) == 0 ==> r.node.store == n.store)
      && (Valid(n) ==>
            var t := r.node.txns[n.nextId];
            && t.key == op.key && t.kind == RecordKind(op) && t.time == now
            && t.count == SelfCount(n.self, replicas)
            && 0 <= t.success <= t.count
            && (SelfCount(n.self, replicas) == 0 ==> t.success == 0 && t.value == RecordValue(op))
            && (SelfCount(n.self, replicas) == 1 ==>
                  && r.node.store == ApplyLocally(op, Local(n.store, t)).store
                  && t.success == (if op.Create? || op.key in n.store then 1 else 0)
                  && t.value == (if op.Read? && op.key in n.store then n.store[op.key] else RecordValue(op))))
  {
    var rec := Opened(n, Txn(op.key, RecordValue(op), RecordKind(op), now, 0, 0));
    var spread := FanOut(n.self, Replicas(n.ring, keyHash, op.key), op, n.nextId, Local(n.store, rec));
    OpenRun(op, n.store, Txn(op.key, RecordValue(op), RecordKind(op), now, 0, 0), SelfCount(n.self, Replicas(n.ring, keyHash, op.key)));
    Step(Register(n.(store := spread.local.store), spread.local.txn), spread.sent, [])
  }

  /** On a ring of fewer than three nodes a client operation reaches nobody:
      its record starts and stays at zero replies. */
  lemma SmallRingReachesNobody(n: Node, op: ClientOp, keyHash: string -> nat, now: int)
    requires Valid(n) && |n.ring| < 3
    ensures var r := ClientRequest(n, op, keyHash, now);
      r.sent == [] && r.node.store == n.store && r.node.txns[n.nextId].count == 0
  {
  }

  /** When the coordinator holds one replica slot of a fresh key, a client
      create stores the value locally and starts at one success of one. */
  lemma LocalCreateCounts(n: Node, key: string, value: string, keyHash: string -> nat, now: int)
    requires Valid(n) && key !in n.store
    requires SelfCount(n.self, Replicas(n.ring, keyHash, key)) == 1
    ensures var r := ClientRequest(n, Create(key, value), keyHash, now);
      && r.node.store == n.store[key := value]
      && r.node.txns[n.nextId].success == 1 && r.node.txns[n.nextId].count == 1
      && |r.sent| == |Replicas(n.ring, keyHash, key)| - 1
  {
    CreateFanOut(n.self, Replicas(n.ring, keyHash, key), key, value, n.nextId, Local(n.store, Txn(key, value, CreateKind, now, 0, 0)));
  }

  lemma {:induction false} CreateFanOut(self: Addr, replicas: seq<RingNode>, key: string, value: string, id: int, acc: Local)
    requires key !in acc.store && SelfCount(self, replicas) == 1
    ensures var r := FanOut(self, replicas, Create(key, value), id, acc);
      r.local.store == acc.store[key := value] && r.local.txn.success == acc.txn.success + 1
  {
    if replicas[0].addr == self {
      var acc1 := ApplyLocally(Create(key, value), acc);
      assert SelfCount(self, replicas[1..]) == 0;
      assert FanOut(self, replicas[1..], Create(key, value), id, acc1).local == acc1;
    } else {
      CreateFanOut(self, replicas[1..], key, value, id, acc);
    }
  }

  /** `clientUpdate` files its record as a "create": the coordinator's
      outcome line for an update is a create line. */
  lemma UpdateIsRecordedAsCreate(n: Node, key: string, value: string, keyHash: string -> nat, now: int)
    requires Valid(n)
    ensures ClientRequest(n, Update(key, value), keyHash, now).node.txns[n.nextId].kind == CreateKind
  {
  }

  // ---------------------------------------------------------------------
  // Server side: the request cases of `checkMessages`

  /** A replica answers every request exactly once, to its sender, under the
      request's transaction id: a success flag for create, update and delete
      (create always succeeds, an existing key is left as it is), the stored
      value or "" for a read. */
  function OnRequest(n: Node, m: Msg): (r: Step)
    requires IsRequest(m)
    ensures r.node == n.(store := r.node.store) && r.log == []
    ensures |r.sent| == 1 && AnswersRequest(r.sent[0], m)
    ensures m.CreateMsg? ==>
              && r.node.store == CreateKeyValue(n.store, m.key, m.value).table
              && r.sent[0].msg == ReplyMsg(m.id, n.self, true)
    ensures m.UpdateMsg? ==> var u := UpdateKeyValue(n.store, m.key, m.value);
              r.node.store == u.table && r.sent[0].msg == ReplyMsg(m.id, n.self, u.ok)
    ensures m.DeleteMsg? ==> var d := DeleteKey(n.store, m.key);
              r.node.store == d.table && r.sent[0].msg == ReplyMsg(m.id, n.self, d.ok)
    ensures m.ReadMsg? ==>
              r.node == n && r.sent[0].msg == ReadReplyMsg(m.id, n.self, ReadKey(n.store, m.key))
  {
    match m
    case CreateMsg(id, sender, key, value, _) =>
      var c := if key in n.store then Outcome(n.store, true) else CreateKeyValue(n.store, key, value);
      Step(n.(store := c.table), [Send(sender, ReplyMsg(id, n.self, c.ok))], [])
    case UpdateMsg(id, sender, key, value, _) =>
      var u := UpdateKeyValue(n.store, key, value);
      Step(n.(store := u.table), [Send(sender, ReplyMsg(id, n.self, u.ok))], [])
    case DeleteMsg(id, sender, key) =>
      var d := DeleteKey(n.store, key);
      Step(n.(store := d.table), [Send(sender, ReplyMsg(id, n.self, d.ok))], [])
    case ReadMsg(id, sender, key) =>
      Step(n, [Send(sender, ReadReplyMsg(id, n.self, ReadKey(n.store, key)))], [])
  }

  /** A replica that accepted a create for a fresh key answers a later read
      of that key with the created value. */
  lemma CreateThenReadReplies(n: Node, id1: int, id2: int, from: Addr, key: string, value: string)
    requires key !in n.store
    ensures var created := OnRequest(n, CreateMsg(id1, from, key, value, Primary)).node;
      OnRequest(created, ReadMsg(id2, from, key)).sent == [Send(from, ReadReplyMsg(id2, n.self, value))]
  {
  }

  // ---------------------------------------------------------------------
  // Replies: the REPLY and READREPLY cases of `checkMessages`

  datatype Verdict = Pending | Committed | Aborted

  /** The retirement rule: success at two successes, else failure once three
      replies are in. */
  function VerdictOf(success: int, count: int): Verdict {
    if success >= 2 then Committed else if count == 3 then Aborted else Pending
  }

  /** One reply counted into a record: one more reply, one more success when
      it succeeded; a successful READREPLY's value replaces the record's
      value, every time. */
  function Tally(t: Txn, ok: bool, value: Option<string>): (r: Txn)
    ensures r.count == t.count + 1
    ensures r.success == t.success + (if ok then 1 else 0)
    ensures r.key == t.key && r.kind == t.kind && r.time == t.time
    ensures r.value == if ok && value.Some? then value.value else t.value
  {
    t.(success := t.success + (if ok then 1 else 0),
       count := t.count + 1,
       value := if ok && value.Some? then value.value else t.value)
  }

  /** A reply to transaction `id`: ignored for an unknown id; otherwise
      counted, and on a verdict handed to `logtrans` and erased. */
  function OnReply(n: Node, id: int, ok: bool, value: Option<string>, keyHash: string -> nat, now: int): (r: Step)
    ensures SameFrame(n, r.node) && Fresh(n, r.node)
    ensures Valid(n) ==> Valid(r.node)
    ensures forall e :: e in r.log ==> e.id == id
    ensures id !in n.txns ==> r == Step(n, [], [])
    ensures id in n.txns ==>
              var t := Tally(n.txns[id], ok, value);
              && (VerdictOf(t.success, t.count) == Pending ==>
                    r == Step(n.(txns := n.txns[id := t]), [], []))
              && (VerdictOf(t.success, t.count) != Pending ==> id !in r.node.txns)
              && (VerdictOf(t.success, t.count) != Pending && IsClientKind(t.kind) ==>
                    && r.node == n.(txns := n.txns - {id})
                    && r.log == [Logged(t.kind, VerdictOf(t.success, t.count) == Committed, id, t.key, t.value)])
              && (VerdictOf(t.success, t.count) == Committed && t.kind == DeleteKeyKind ==>
                    t.key !in r.node.store)
    ensures id in n.txns ==>
              var t := Tally(n.txns[id], ok, value);
              var v := VerdictOf(t.success, t.count);
              v != Pending ==>
                var s := LogTrans(n.(txns := n.txns[id := t]), id, v == Committed, keyHash, now);
                r == Step(s.node.(txns := s.node.txns - {id}), s.sent, s.log)
  {
    if id !in n.txns then Step(n, [], [])
    else
      var t := Tally(n.txns[id], ok, value);
      var n1 := n.(txns := n.txns[id := t]);
      match VerdictOf(t.success, t.count)
      case Pending => Step(n1, [], [])
      case Committed =>
        var s := LogTrans(n1, id, true, keyHash, now);
        Step(s.node.(txns := s.node.txns - {id}), s.sent, s.log)
      case Aborted =>
        var s := LogTrans(n1, id, false, keyHash, now);
        Step(s.node.(txns := s.node.txns - {id}), s.sent, s.log)
  }

  // ---------------------------------------------------------------------
  // `logtrans` and `ReplicateKey`

  /** `logtrans`: a client transaction is logged with its outcome; a
      "replicate" record re-runs replication whatever the outcome; a
      "deletekey" record drops the key locally on success and re-runs
      replication on failure. */
  function LogTrans(n: Node, id: int, ok: bool, keyHash: string -> nat, now: int): (r: Step)
    requires id in n.txns
    ensures SameFrame(n, r.node) && Fresh(n, r.node)
    ensures forall i :: i in n.txns ==> i in r.node.txns
    ensures Valid(n) ==> Valid(r.node) && Keeps(n, r.node, now)
    ensures forall e :: e in r.log ==> e.id == id
    ensures IsClientKind(n.txns[id].kind) ==>
              var t := n.txns[id];
              r == Step(n, [], [Logged(t.kind, ok, id, t.key, t.value)])
    ensures n.txns[id].kind == DeleteKeyKind && ok ==>
              r == Step(n.(store := n.store - {n.txns[id].key}), [], [])
    ensures n.txns[id].kind == ReplicateKind || (n.txns[id].kind == DeleteKeyKind && !ok) ==>
              r == ReplicateKey(n, n.txns[id].key, keyHash, now)
  {
    var t := n.txns[id];
    match t.kind
    case ReplicateKind => ReplicateKey(n, t.key, keyHash, now)
    case DeleteKeyKind =>
      if ok then Step(n.(store := n.store - {t.key}), [], [])
      else ReplicateKey(n, t.key, keyHash, now)
    case _ => Step(n, [], [Logged(t.kind, ok, id, t.key, t.value)])
  }

  /** `ReplicateKey`: send a CREATE with the stored value to every other
      replica and register one record: "replicate", already one success of
      one, when this node is a replica, else "deletekey".  Reading `ht[key]`
      for the message inserts an empty value when the key is gone. */
  function ReplicateKey(n: Node, key: string, keyHash: string -> nat, now: int): (r: Step)
    ensures SameFrame(n, r.node) && Fresh(n, r.node) && r.log == []
    ensures r.node.nextId == n.nextId + 1
    ensures r.node.queue == n.queue + [n.nextId]
    ensures r.node.txns.Keys == n.txns.Keys + {n.nextId}
    ensures forall i :: i in n.txns && i != n.nextId ==> r.node.txns[i] == n.txns[i]
    ensures Valid(n) ==> Valid(r.node)
    ensures var replicas := Replicas(n.ring, keyHash, key);
      var others := Others(n.self, replicas);
      && (key in n.store || |others| == 0 ==> r.node.store == n.store)
      && (key !in n.store && |others| > 0 ==> r.node.store == n.store[key := ""])
      && (|others| > 0 ==> key in r.node.store && r.sent == Broadcast(others, CreateMsg(n.nextId, n.self, key, r.node.store[key], Primary)))
      && (|others| == 0 ==> r.sent == [])
      && (Valid(n) ==>
            var t := r.node.txns[n.nextId];
            && t.key == key && t.value == "" && t.time == now
            && (t.kind == DeleteKeyKind <==> SelfCount(n.self, replicas) == 0)
            && (t.kind == ReplicateKind <==> SelfCount(n.self, replicas) > 0)
            && t.success == t.count == (if SelfCount(n.self, replicas) > 0 then 1 else 0))
  {
    var replicas := Replicas(n.ring, keyHash, key);
    var others := Others(n.self, replicas);
    var isReplica := SelfCount(n.self, replicas) > 0;
    var store := if |others| > 0 && key !in n.store then n.store[key := ""] else n.store;
    var sent := if |others| > 0 then Broadcast(others, CreateMsg(n.nextId, n.self, key, store[key], Primary)) else [];
    var rec := Opened(n, Txn(key, "", if isReplica then ReplicateKind else DeleteKeyKind, now, 0, 0));
    var rec' := if isReplica then rec.(success := rec.success + 1, count := rec.count + 1) else rec;
    Step(Register(n.(store := store), rec'), sent, [])
  }

  /** A "deletekey" transaction that reaches quorum removes the key from this
      node's store, and its record is retired. */
  lemma DeleteKeyCommitPurges(n: Node, id: int, ok: bool, keyHash: string -> nat, now: int)
    requires id in n.txns && n.txns[id].kind == DeleteKeyKind
    requires VerdictOf(n.txns[id].success + (if ok then 1 else 0), n.txns[id].count + 1) == Committed
    ensures var r := OnReply(n, id, ok, None, keyHash, now);
      n.txns[id].key !in r.node.store && id !in r.node.txns
  {
  }

  // ---------------------------------------------------------------------
  // The quorum rule over a run of replies

  function CountTrue(flags: seq<bool>): nat {
    if |flags| == 0 then 0 else (if flags[0] then 1 else 0) + CountTrue(flags[1..])
  }

  /** The verdict reached by feeding replies one at a time to a record with
      the given counts, stopping at the first verdict. */
  function Feed(success: int, count: int, flags: seq<bool>): Verdict
    decreases |flags|
  {
    if |flags| == 0 then Pending
    else
      var s := success + (if flags[0] then 1 else 0);
      var v := VerdictOf(s, count + 1);
      if v != Pending then v else Feed(s, count + 1, flags[1..])
  }

  /** Three remote replicas: after all three replies the transaction is
      always decided, and it succeeds exactly when at least two succeeded. */
  lemma QuorumOfThree(flags: seq<bool>)
    requires |flags| == 3
    ensures Feed(0, 0, flags) == if CountTrue(flags) >= 2 then Committed else Aborted
  {
    var a, b, c := flags[0], flags[1], flags[2];
    assert flags[1..] == [b, c] && [b, c][1..] == [c] && [c][1..] == [];
    assert CountTrue([c]) == (if c then 1 else 0);
    assert CountTrue([b, c]) == (if b then 1 else 0) + CountTrue([c]);
    var s1 := if a then 1 else 0;
    var s2 := s1 + (if b then 1 else 0);
    assert Feed(s2, 2, [c]) == VerdictOf(s2 + (if c then 1 else 0), 3);
    assert Feed(s1, 1, [b, c]) == if s2 >= 2 then Committed else Feed(s2, 2, [c]);
    assert Feed(0, 0, flags) == Feed(s1, 1, [b, c]);
  }

  /** The coordinator is one replica and succeeded locally: the two remote
      replies decide, and one success among them suffices. */
  lemma QuorumWithLocalReplica(flags: seq<bool>)
    requires |flags| == 2
    ensures Feed(1, 1, flags) == if CountTrue(flags) >= 1 then Committed else Aborted
  {
    var a, b := flags[0], flags[1];
    assert flags[1..] == [b] && [b][1..] == [];
    assert CountTrue([b]) == (if b then 1 else 0);
  }

  /** Replies for one transaction, applied in order. */
  function ApplyReplies(n: Node, id: int, flags: seq<bool>, keyHash: string -> nat, now: int): (r: Step)
    ensures Valid(n) ==> Valid(r.node)
    ensures Fresh(n, r.node)
    decreases |flags|
  {
    if |flags| == 0 then Step(n, [], [])
    else
      var first := OnReply(n, id, flags[0], None, keyHash, now);
      var rest := ApplyReplies(first.node, id, flags[1..], keyHash, now);
      Step(rest.node, first.sent + rest.sent, first.log + rest.log)
  }

  /** The node follows the reference `Feed`: after a run of replies the
      record is still open exactly when `Feed` reached no verdict, and a
      client transaction is logged exactly once, with success exactly when
      `Feed` committed, once `Feed` reached a verdict. */
  lemma {:induction false} RepliesFollowFeed(n: Node, id: int, flags: seq<bool>, keyHash: string -> nat, now: int)
    requires Valid(n) && id in n.txns
    requires VerdictOf(n.txns[id].success, n.txns[id].count) == Pending
    ensures var r := ApplyReplies(n, id, flags, keyHash, now);
      var t := n.txns[id];
      var v := Feed(t.success, t.count, flags);
      && (id in r.node.txns <==> v == Pending)
      && (IsClientKind(t.kind) && v == Pending ==> r.log == [])
      && (IsClientKind(t.kind) && v != Pending ==> r.log == [Logged(t.kind, v == Committed, id, t.key, t.value)])
    decreases |flags|
  {
    if |flags| > 0 {
      var t := n.txns[id];
      var first := OnReply(n, id, flags[0], None, keyHash, now);
      var t1 := Tally(t, flags[0], None);
      if VerdictOf(t1.success, t1.count) == Pending {
        assert first == Step(n.(txns := n.txns[id := t1]), [], []);
        RepliesFollowFeed(first.node, id, flags[1..], keyHash, now);
      } else {
        StaysRetired(first.node, id, flags[1..], keyHash, now);
      }
    }
  }

  /** A retired id never comes back and logs nothing more: later records get
      later ids. */
  lemma {:induction false} StaysRetired(n: Node, id: int, flags: seq<bool>, keyHash: string -> nat, now: int)
    requires id !in n.txns && id < n.nextId
    ensures var r := ApplyReplies(n, id, flags, keyHash, now);
      id !in r.node.txns && r.log == [] && r.sent == []
    decreases |flags|
  {
    if |flags| > 0 {
      StaysRetired(n, id, flags[1..], keyHash, now);
    }
  }

  // ---------------------------------------------------------------------
  // `checkMessages`: dispatch, then the timeout sweep

  /** The answer a replica owes a request: to its sender, under its id, a
      READREPLY for a read and a REPLY for anything else. */
  predicate AnswersRequest(s: Send, m: Msg) {
    && s.to == m.sender && s.msg.id == m.id
    && (m.ReadMsg? ==> s.msg.ReadReplyMsg?)
    && (!m.ReadMsg? ==> s.msg.ReplyMsg?)
  }

  /** Every request of the inbox is answered in `sent`. */
  ghost predicate Answered(inbox: seq<Msg>, sent: seq<Send>) {
    forall m :: m in inbox && IsRequest(m) ==> exists s :: s in sent && AnswersRequest(s, m)
  }

  /** Every line of `log` is about the transaction of a reply in the inbox. */
  ghost predicate FromReplies(inbox: seq<Msg>, log: seq<Event>) {
    forall e :: e in log ==> exists m :: m in inbox && !IsRequest(m) && m.id == e.id
  }

  /** One inbound message. */
  function HandleMessage(n: Node, m: Msg, keyHash: string -> nat, now: int): (r: Step)
    ensures SameFrame(n, r.node) && Fresh(n, r.node)
    ensures Valid(n) ==> Valid(r.node)
    ensures IsRequest(m) ==> |r.sent| == 1 && AnswersRequest(r.sent[0], m)
    ensures IsRequest(m) ==> r == OnRequest(n, m)
    ensures !IsRequest(m) && m.id !in n.txns ==> r == Step(n, [], [])
    ensures m.ReplyMsg? ==> r == OnReply(n, m.id, m.success, None, keyHash, now)
    ensures m.ReadReplyMsg? ==> r == OnReply(n, m.id, m.value != "", Some(m.value), keyHash, now)
    ensures IsRequest(m) ==> r.log == []
    ensures forall e :: e in r.log ==> e.id == m.id
  {
    if IsRequest(m) then OnRequest(n, m)
    else if m.ReplyMsg? then OnReply(n, m.id, m.success, None, keyHash, now)
    else OnReply(n, m.id, m.value != "", Some(m.value), keyHash, now)
  }

  /** The first message's sends and log followed by the rest's. */
  lemma HandledStep(inbox: seq<Msg>, first: Step, rest: Step)
    requires |inbox| > 0
    requires IsRequest(inbox[0]) ==> |first.sent| > 0 && AnswersRequest(first.sent[0], inbox[0])
    requires IsRequest(inbox[0]) ==> first.log == []
    requires forall e :: e in first.log ==> e.id == inbox[0].id
    requires Answered(inbox[1..], rest.sent) && FromReplies(inbox[1..], rest.log)
    ensures Answered(inbox, first.sent + rest.sent) && FromReplies(inbox, first.log + rest.log)
  {
    assert forall m :: m in inbox[1..] ==> m in inbox;
    forall m | m in inbox && IsRequest(m)
      ensures exists s :: s in first.sent + rest.sent && AnswersRequest(s, m)
    {
      if m == inbox[0] {
        assert first.sent[0] in first.sent + rest.sent;
      } else {
        assert m in inbox[1..];
        var s :| s in rest.sent && AnswersRequest(s, m);
        assert s in first.sent + rest.sent;
      }
    }
    forall e | e in first.log + rest.log
      ensures exists m :: m in inbox && !IsRequest(m) && m.id == e.id
    {
      if e in first.log {
        assert inbox[0] in inbox;
      }
    }
  }

  /** The inbox in order: every request is answered, and every log line is
      about a reply that arrived. */
  function HandleAll(n: Node, inbox: seq<Msg>, keyHash: string -> nat, now: int): (r: Step)
    ensures SameFrame(n, r.node) && Fresh(n, r.node)
    ensures Valid(n) ==> Valid(r.node)
    ensures Answered(inbox, r.sent)
    ensures FromReplies(inbox, r.log)
    decreases |inbox|
  {
    if |inbox| == 0 then Step(n, [], [])
    else
      var first := HandleMessage(n, inbox[0], keyHash, now);
      var rest := HandleAll(first.node, inbox[1..], keyHash, now);
      HandledStep(inbox, first, rest);
      Step(rest.node, first.sent + rest.sent, first.log + rest.log)
  }

  /** An inbox of REPLYs for transaction `id`, the i-th carrying `flags[i]`. */
  ghost predicate RepliesFor(inbox: seq<Msg>, id: int, flags: seq<bool>) {
    && |inbox| == |flags|
    && forall i :: 0 <= i < |inbox| ==> inbox[i].ReplyMsg? && inbox[i].id == id && inbox[i].success == flags[i]
  }

  /** The inbox loop counts REPLYs exactly as `ApplyReplies` does, so the
      quorum lemmas about `ApplyReplies` hold for the node's own handler. */
  lemma {:induction false} InboxCountsReplies(n: Node, inbox: seq<Msg>, id: int, flags: seq<bool>, keyHash: string -> nat, now: int)
    requires RepliesFor(inbox, id, flags)
    ensures HandleAll(n, inbox, keyHash, now) == ApplyReplies(n, id, flags, keyHash, now)
    decreases |inbox|
  {
    if |inbox| > 0 {
      var first := HandleMessage(n, inbox[0], keyHash, now);
      assert first == OnReply(n, id, flags[0], None, keyHash, now);
      assert RepliesFor(inbox[1..], id, flags[1..]) by {
        forall i | 0 <= i < |inbox[1..]|
          ensures inbox[1..][i].ReplyMsg? && inbox[1..][i].id == id && inbox[1..][i].success == flags[1..][i]
        {
          assert inbox[1..][i] == inbox[i + 1];
        }
      }
      InboxCountsReplies(first.node, inbox[1..], id, flags[1..], keyHash, now);
    }
  }

  /** A client transaction with no local replica that receives the REPLYs of
      its three replicas is decided and retired, and logged once: as a
      success exactly when at least two of them succeeded. */
  lemma InboxQuorumOfThree(n: Node, inbox: seq<Msg>, id: int, flags: seq<bool>, keyHash: string -> nat, now: int)
    requires Valid(n) && id in n.txns && IsClientKind(n.txns[id].kind)
    requires n.txns[id].success == 0 && n.txns[id].count == 0
    requires RepliesFor(inbox, id, flags) && |flags| == 3
    ensures var r := HandleAll(n, inbox, keyHash, now); var t := n.txns[id];
      && id !in r.node.txns
      && r.log == [Logged(t.kind, CountTrue(flags) >= 2, id, t.key, t.value)]
  {
    InboxCountsReplies(n, inbox, id, flags, keyHash, now);
    RepliesFollowFeed(n, id, flags, keyHash, now);
    QuorumOfThree(flags);
  }

  predicate TimedOut(t: Txn, now: int) {
    now - t.time >= TransTimeout
  }

  /** The failure line `logtrans` writes for a timed-out client record. */
  function FailLine(t: Txn, id: int): Event {
    Logged(t.kind, false, id, t.key, t.value)
  }

  /** What the sweep over `ids` owes the log, read off the records as they
      stood before it: one failure line per queued id whose client record has
      timed out, in queue order. */
  function TimeoutLines(txns: map<int, Txn>, ids: seq<int>, now: int): seq<Event>
    decreases |ids|
  {
    if |ids| == 0 then []
    else
      var id := ids[0];
      (if id in txns && TimedOut(txns[id], now) && IsClientKind(txns[id].kind) then [FailLine(txns[id], id)] else [])
      + TimeoutLines(txns, ids[1..], now)
  }

  /** A line is owed for exactly the queued ids whose client record has timed
      out. */
  ghost predicate Owed(txns: map<int, Txn>, ids: seq<int>, now: int, e: Event) {
    e.id in ids && e.id in txns && TimedOut(txns[e.id], now) && IsClientKind(txns[e.id].kind)
    && e == FailLine(txns[e.id], e.id)
  }

  lemma {:induction false} TimeoutLinesOwed(txns: map<int, Txn>, ids: seq<int>, now: int, e: Event)
    ensures e in TimeoutLines(txns, ids, now) <==> Owed(txns, ids, now, e)
    decreases |ids|
  {
    if |ids| > 0 {
      TimeoutLinesOwed(txns, ids[1..], now, e);
      assert forall i :: i in ids <==> i == ids[0] || i in ids[1..];
    }
  }

  /** Records stamped `now` have not timed out, so adding them, with every
      earlier record kept, leaves what is owed unchanged. */
  lemma {:induction false} TimeoutLinesKept(txns: map<int, Txn>, txns': map<int, Txn>, ids: seq<int>, now: int)
    requires forall i :: i in txns ==> i in txns' && txns'[i] == txns[i]
    requires forall i :: i in txns' && i !in txns ==> txns'[i].time == now
    ensures TimeoutLines(txns', ids, now) == TimeoutLines(txns, ids, now)
    decreases |ids|
  {
    if |ids| > 0 {
      TimeoutLinesKept(txns, txns', ids[1..], now);
    }
  }

  /** One queued id: a record that has timed out is handed to `logtrans` as
      a failure; anything else is popped without effect. */
  function SweepOne(n: Node, id: int, keyHash: string -> nat, now: int): (r: Step)
    ensures SameFrame(n, r.node) && Fresh(n, r.node)
    ensures forall i :: i in n.txns ==> i in r.node.txns
    ensures Valid(n) ==> Valid(r.node) && Keeps(n, r.node, now)
    ensures !(id in n.txns && TimedOut(n.txns[id], now)) ==> r == Step(n, [], [])
    ensures id in n.txns && TimedOut(n.txns[id], now) ==> r == LogTrans(n, id, false, keyHash, now)
    ensures r.log == TimeoutLines(n.txns, [id], now)
  {
    if id in n.txns && TimedOut(n.txns[id], now) then LogTrans(n, id, false, keyHash, now) else Step(n, [], [])
  }

  /** The tail of the sweep owes what it owed before the head was handled. */
  lemma SweepTail(n: Node, first: Step, ids: seq<int>, now: int)
    requires Valid(n) ==> Keeps(n, first.node, now)
    ensures Valid(n) ==> TimeoutLines(first.node.txns, ids, now) == TimeoutLines(n.txns, ids, now)
  {
    if Valid(n) {
      TimeoutLinesKept(n.txns, first.node.txns, ids, now);
    }
  }

  /** The sweep over the queued ids: a timed-out record is handed to
      `logtrans` as a failure but is not erased; the log is exactly the
      failure lines owed for the ids as the records stood before. */
  function SweepIds(n: Node, ids: seq<int>, keyHash: string -> nat, now: int): (r: Step)
    ensures SameFrame(n, r.node) && Fresh(n, r.node)
    ensures forall i :: i in n.txns ==> i in r.node.txns
    ensures Valid(n) ==> Valid(r.node) && Keeps(n, r.node, now)
    ensures Valid(n) ==> r.log == TimeoutLines(n.txns, ids, now)
    decreases |ids|
  {
    if |ids| == 0 then Step(n, [], [])
    else
      var first := SweepOne(n, ids[0], keyHash, now);
      var rest := SweepIds(first.node, ids[1..], keyHash, now);
      SweepTail(n, first, ids[1..], now);
      Step(rest.node, first.sent + rest.sent, first.log + rest.log)
  }

  /** The timeout sweep drains the whole queue.  Ids that `logtrans` queues
      during the sweep belong to records stamped `now`, which the source's
      loop pops without effect, so the queue ends empty.  No record is ever
      erased by the sweep: a timed-out transaction is logged as failed but
      stays in the map. */
  function TimeoutSweep(n: Node, keyHash: string -> nat, now: int): (r: Step)
    ensures r.node.queue == []
    ensures SameFrame(n, r.node) && Fresh(n, r.node)
    ensures Valid(n) ==> Valid(r.node)
    ensures forall i :: i in n.txns ==> i in r.node.txns
    ensures Valid(n) ==> forall i :: i in r.node.txns && i !in n.txns ==> !TimedOut(r.node.txns[i], now)
    ensures Valid(n) ==> r.log == TimeoutLines(n.txns, n.queue, now)
    ensures Valid(n) ==> var keys := RerunKeys(n.txns, n.queue, now);
              && r.node.nextId == n.nextId + |keys|
              && Padded(n.store, r.node.store, keys)
              && ReplicatedInOrder(n, r.node, keys, keyHash)
              && r.sent == ReplicationSends(n.self, n.ring, n.store, keyHash, keys, n.nextId)
  {
    var s := SweepIds(n, n.queue, keyHash, now);
    SweepIdsReruns(n, n.queue, keyHash, now);
    InOrderIgnoresQueue(n, s.node, s.node.(queue := []), RerunKeys(n.txns, n.queue, now), keyHash);
    Step(s.node.(queue := []), s.sent, s.log)
  }

  /** The sweep logs a failure line for every queued client transaction that
      has timed out, and nothing else. */
  lemma TimeoutSweepLogsOwed(n: Node, keyHash: string -> nat, now: int)
    requires Valid(n)
    ensures forall e :: e in TimeoutSweep(n, keyHash, now).log <==> Owed(n.txns, n.queue, now, e)
  {
    forall e
      ensures e in TimeoutSweep(n, keyHash, now).log <==> Owed(n.txns, n.queue, now, e)
    {
      TimeoutLinesOwed(n.txns, n.queue, now, e);
    }
  }

  // ---------------------------------------------------------------------
  // What the sweep replicates again

  /** The keys of the queued "replicate" and "deletekey" records that have
      timed out, in queue order: `logtrans(id, false)` re-runs `ReplicateKey`
      for each of them. */
  function RerunKeys(txns: map<int, Txn>, ids: seq<int>, now: int): seq<string>
    decreases |ids|
  {
    if |ids| == 0 then []
    else
      var id := ids[0];
      (if Rerun(txns, id, now) then [txns[id].key] else [])
      + RerunKeys(txns, ids[1..], now)
  }

  /** A record the sweep re-runs: there, timed out, and not a client's. */
  predicate Rerun(txns: map<int, Txn>, id: int, now: int) {
    id in txns && TimedOut(txns[id], now) && !IsClientKind(txns[id].kind)
  }

  /** A key is replicated again exactly when some queued id's record is
      re-run and is about that key. */
  lemma {:induction false} RerunKeysListed(txns: map<int, Txn>, ids: seq<int>, now: int, k: string)
    ensures k in RerunKeys(txns, ids, now) <==> exists id :: id in ids && Rerun(txns, id, now) && txns[id].key == k
    decreases |ids|
  {
    if |ids| > 0 {
      RerunKeysListed(txns, ids[1..], now, k);
      assert forall id :: id in ids <==> id == ids[0] || id in ids[1..];
    }
  }

  /** Adding records stamped `now`, with every earlier record kept, leaves
      the keys to replicate again unchanged. */
  lemma {:induction false} RerunKeysKept(txns: map<int, Txn>, txns': map<int, Txn>, ids: seq<int>, now: int)
    requires forall i :: i in txns ==> i in txns' && txns'[i] == txns[i]
    requires forall i :: i in txns' && i !in txns ==> txns'[i].time == now
    ensures RerunKeys(txns', ids, now) == RerunKeys(txns, ids, now)
    decreases |ids|
  {
    if |ids| > 0 {
      RerunKeysKept(txns, txns', ids[1..], now);
    }
  }

  /** `store'` is `store` with some of `keys` added under the empty value, as
      `ht[key]` does for a key that is gone. */
  ghost predicate Padded(store: Table, store': Table, keys: seq<string>) {
    && (forall k :: k in store ==> k in store' && store'[k] == store[k])
    && (forall k :: k in store' && k !in store ==> k in keys && store'[k] == "")
  }

  /** A padded store reads like the original everywhere. */
  lemma PaddedReads(store: Table, store': Table, keys: seq<string>, k: string)
    requires Padded(store, store', keys)
    ensures ReadKey(store', k) == ReadKey(store, k)
  {
  }

  lemma PaddedTransitive(s0: Table, s1: Table, s2: Table, ka: seq<string>, kb: seq<string>)
    requires Padded(s0, s1, ka) && Padded(s1, s2, kb)
    ensures Padded(s0, s2, ka + kb)
  {
  }

  /** Replication of `keys` in turn, on top of `n`: the counter advanced by
      one per key, each id queued, every earlier record kept, the i-th key's
      replication record under `nextId + i` and its CREATEs, with the value
      the store held, sent in order. */
  ghost predicate Rerunning(n: Node, r: Step, keys: seq<string>, keyHash: string -> nat, now: int) {
    && Valid(r.node) && SameFrame(n, r.node)
    && r.node.nextId == n.nextId + |keys|
    && r.node.queue == n.queue + Ids(n.nextId, |keys|)
    && Keeps(n, r.node, now)
    && Padded(n.store, r.node.store, keys)
    && ReplicatedInOrder(n, r.node, keys, keyHash)
    && r.sent == ReplicationSends(n.self, n.ring, n.store, keyHash, keys, n.nextId)
  }

  /** `ReplicateKey` on any key replicates that one key. */
  lemma RerunRecord(n: Node, k: string, keyHash: string -> nat, now: int)
    requires Valid(n)
    ensures Rerunning(n, ReplicateKey(n, k, keyHash, now), [k], keyHash, now)
  {
    var r := ReplicateKey(n, k, keyHash, now);
    assert r.node.queue == n.queue + Ids(n.nextId, 1);
    RerunKeeps(n, k, keyHash, now);
    RerunPads(n, k, keyHash, now);
    assert ReplicatedAt(n, r.node, [k], keyHash, 0);
    RerunSends(n, k, keyHash, now);
  }

  /** A re-run keeps every record it does not add. */
  lemma RerunKeeps(n: Node, k: string, keyHash: string -> nat, now: int)
    requires Valid(n)
    ensures Keeps(n, ReplicateKey(n, k, keyHash, now).node, now)
  {
  }

  /** A re-run adds at most its own key to the store, with the empty value. */
  lemma RerunPads(n: Node, k: string, keyHash: string -> nat, now: int)
    ensures Padded(n.store, ReplicateKey(n, k, keyHash, now).node.store, [k])
  {
  }

  /** A re-run sends the CREATEs of its one key. */
  lemma RerunSends(n: Node, k: string, keyHash: string -> nat, now: int)
    ensures ReplicateKey(n, k, keyHash, now).sent == ReplicationSends(n.self, n.ring, n.store, keyHash, [k], n.nextId)
  {
    var ks := KeySends(n.self, n.ring, n.store, keyHash, k, n.nextId);
    assert KeyChunks(n.self, n.ring, n.store, keyHash, [k], n.nextId) == [ks];
    assert Flatten([ks]) == [] + ks;
  }

  /** One queued id replicates again exactly the keys `RerunKeys` lists for it. */
  lemma SweepOneReruns(n: Node, id: int, keyHash: string -> nat, now: int)
    requires Valid(n)
    ensures Rerunning(n, SweepOne(n, id, keyHash, now), RerunKeys(n.txns, [id], now), keyHash, now)
  {
    assert [id][1..] == [];
    var s := SweepOne(n, id, keyHash, now);
    if Rerun(n.txns, id, now) {
      var k := n.txns[id].key;
      assert s == ReplicateKey(n, k, keyHash, now);
      RerunRecord(n, k, keyHash, now);
      assert RerunKeys(n.txns, [id], now) == [k];
    } else {
      assert s.node == n && s.sent == [];
      RerunNone(n, s, keyHash, now);
      assert RerunKeys(n.txns, [id], now) == [];
    }
  }

  /** A step that leaves the node alone and sends nothing replicates no key. */
  lemma RerunNone(n: Node, s: Step, keyHash: string -> nat, now: int)
    requires Valid(n) && s.node == n && s.sent == []
    ensures Rerunning(n, s, [], keyHash, now)
  {
    assert n.queue + Ids(n.nextId, 0) == n.queue;
    assert ReplicationSends(n.self, n.ring, n.store, keyHash, [], n.nextId) == [];
  }

  lemma {:induction false} IdsAppend(from: int, a: nat, b: nat)
    ensures Ids(from, a + b) == Ids(from, a) + Ids(from + a, b)
    decreases a
  {
    if a > 0 {
      IdsAppend(from + 1, a - 1, b);
    }
  }

  lemma {:induction false} FlattenAppend(x: seq<seq<Send>>, y: seq<seq<Send>>)
    ensures Flatten(x + y) == Flatten(x) + Flatten(y)
    decreases |y|
  {
    if |y| > 0 {
      var y' := y[..|y| - 1];
      var c := y[|y| - 1];
      assert y == y' + [c];
      assert x + y == (x + y') + [c];
      FlattenSnoc(x + y', c);
      FlattenSnoc(y', c);
      FlattenAppend(x, y');
    } else {
      assert x + y == x;
    }
  }

  /** The chunks of `ka + kb` are those of `ka` followed by those of `kb`. */
  lemma ChunksAppend(f: (string, int) -> seq<Send>, ka: seq<string>, kb: seq<string>, id: int, next: int)
    requires next == id + |ka|
    ensures Chunks(f, ka + kb, id) == Chunks(f, ka, id) + Chunks(f, kb, next)
  {
    var c := Chunks(f, ka + kb, id);
    var ca := Chunks(f, ka, id);
    var cb := Chunks(f, kb, next);
    forall i | 0 <= i < |c|
      ensures c[i] == (ca + cb)[i]
    {
      if i < |ka| {
        assert (ka + kb)[i] == ka[i];
      } else {
        assert (ka + kb)[i] == kb[i - |ka|];
      }
    }
  }

  /** The sends of `ka` then those of `kb` are the sends of `ka + kb`. */
  lemma SendsAppend(self: Addr, ring: seq<RingNode>, store: Table, keyHash: string -> nat,
                    ka: seq<string>, kb: seq<string>, id: int, next: int)
    requires next == id + |ka|
    ensures ReplicationSends(self, ring, store, keyHash, ka, id) + ReplicationSends(self, ring, store, keyHash, kb, next)
         == ReplicationSends(self, ring, store, keyHash, ka + kb, id)
  {
    var f := SendsFor(self, ring, store, keyHash);
    ChunksAppend(f, ka, kb, id, next);
    FlattenAppend(Chunks(f, ka, id), Chunks(f, kb, next));
  }

  /** The sends depend on the store only through what it reads. */
  lemma SendsStore(self: Addr, ring: seq<RingNode>, store: Table, store': Table, keyHash: string -> nat, keys: seq<string>, id: int)
    requires forall k :: ReadKey(store', k) == ReadKey(store, k)
    ensures ReplicationSends(self, ring, store', keyHash, keys, id) == ReplicationSends(self, ring, store, keyHash, keys, id)
  {
    var c := KeyChunks(self, ring, store, keyHash, keys, id);
    var c' := KeyChunks(self, ring, store', keyHash, keys, id);
    forall i | 0 <= i < |keys|
      ensures c'[i] == c[i]
    {
      assert ReadKey(store', keys[i]) == ReadKey(store, keys[i]);
    }
    assert c' == c;
  }

  lemma QueueAppend(q: seq<int>, qa: seq<int>, qb: seq<int>, from: int, ca: nat, cb: nat, next: int)
    requires next == from + ca && qa == q + Ids(from, ca) && qb == qa + Ids(next, cb)
    ensures qb == q + Ids(from, ca + cb)
  {
    IdsAppend(from, ca, cb);
  }

  /** The records of `ka` stay in place under those of `kb`. */
  lemma OrderAppend(n: Node, a: Node, b: Node, ka: seq<string>, kb: seq<string>, keyHash: string -> nat, now: int)
    requires SameFrame(n, a) && a.nextId == n.nextId + |ka|
    requires ReplicatedInOrder(n, a, ka, keyHash) && ReplicatedInOrder(a, b, kb, keyHash) && Keeps(a, b, now)
    ensures ReplicatedInOrder(n, b, ka + kb, keyHash)
  {
    var k := ka + kb;
    forall i | 0 <= i < |k|
      ensures ReplicatedAt(n, b, k, keyHash, i)
    {
      if i < |ka| {
        assert ReplicatedAt(n, a, ka, keyHash, i);
        assert k[i] == ka[i];
      } else {
        assert ReplicatedAt(a, b, kb, keyHash, i - |ka|);
        assert k[i] == kb[i - |ka|];
      }
    }
  }

  /** Replicating `ka` and then `kb` replicates `ka + kb`. */
  lemma RerunAppend(n: Node, a: Step, b: Step, ka: seq<string>, kb: seq<string>, keyHash: string -> nat, now: int)
    requires Rerunning(n, a, ka, keyHash, now) && Rerunning(a.node, b, kb, keyHash, now)
    ensures Rerunning(n, Step(b.node, a.sent + b.sent, a.log + b.log), ka + kb, keyHash, now)
  {
    QueueAppend(n.queue, a.node.queue, b.node.queue, n.nextId, |ka|, |kb|, a.node.nextId);
    KeepsTransitive(n, a.node, b.node, now);
    PaddedTransitive(n.store, a.node.store, b.node.store, ka, kb);
    OrderAppend(n, a.node, b.node, ka, kb, keyHash, now);
    SendsAfterPad(n.self, n.ring, n.store, a.node.store, keyHash, ka, kb, n.nextId, a.node.nextId, a.sent, b.sent);
  }

  /** The CREATEs of `ka` from `s0`, then those of `kb` from `s0` padded with
      some of `ka`, are the CREATEs of `ka + kb` from `s0`. */
  lemma SendsAfterPad(self: Addr, ring: seq<RingNode>, s0: Table, s1: Table, keyHash: string -> nat,
                      ka: seq<string>, kb: seq<string>, id: int, next: int, sa: seq<Send>, sb: seq<Send>)
    requires next == id + |ka| && Padded(s0, s1, ka)
    requires sa == ReplicationSends(self, ring, s0, keyHash, ka, id)
    requires sb == ReplicationSends(self, ring, s1, keyHash, kb, next)
    ensures sa + sb == ReplicationSends(self, ring, s0, keyHash, ka + kb, id)
  {
    forall k
      ensures ReadKey(s1, k) == ReadKey(s0, k)
    {
      PaddedReads(s0, s1, ka, k);
    }
    SendsStore(self, ring, s0, s1, keyHash, kb, next);
    SendsAppend(self, ring, s0, keyHash, ka, kb, id, next);
  }

  /** The sweep over the queued ids replicates again exactly the keys
      `RerunKeys` lists, read off the records before the sweep, in order. */
  lemma {:induction false} SweepIdsReruns(n: Node, ids: seq<int>, keyHash: string -> nat, now: int)
    ensures Valid(n) ==> Rerunning(n, SweepIds(n, ids, keyHash, now), RerunKeys(n.txns, ids, now), keyHash, now)
    decreases |ids|
  {
    if Valid(n) {
      if |ids| == 0 {
        RerunNone(n, SweepIds(n, ids, keyHash, now), keyHash, now);
      } else {
        var first := SweepOne(n, ids[0], keyHash, now);
        var rest := SweepIds(first.node, ids[1..], keyHash, now);
        SweepOneReruns(n, ids[0], keyHash, now);
        SweepIdsReruns(first.node, ids[1..], keyHash, now);
        RerunKeysKept(n.txns, first.node.txns, ids[1..], now);
        RerunKeysSplit(n.txns, ids, now);
        RerunAppend(n, first, rest, RerunKeys(n.txns, [ids[0]], now), RerunKeys(n.txns, ids[1..], now), keyHash, now);
      }
    }
  }

  /** The keys of a queue are those of its head followed by those of its tail. */
  lemma RerunKeysSplit(txns: map<int, Txn>, ids: seq<int>, now: int)
    requires |ids| > 0
    ensures RerunKeys(txns, ids, now) == RerunKeys(txns, [ids[0]], now) + RerunKeys(txns, ids[1..], now)
  {
    assert [ids[0]][1..] == [];
  }

  /** The replication records do not depend on the queue. */
  lemma InOrderIgnoresQueue(n: Node, a: Node, b: Node, keys: seq<string>, keyHash: string -> nat)
    requires b.txns == a.txns
    ensures ReplicatedInOrder(n, a, keys, keyHash) ==> ReplicatedInOrder(n, b, keys, keyHash)
  {
    if ReplicatedInOrder(n, a, keys, keyHash) {
      forall i | 0 <= i < |keys|
        ensures ReplicatedAt(n, b, keys, keyHash, i)
      {
        assert ReplicatedAt(n, a, keys, keyHash, i);
      }
    }
  }

  /** A client transaction at the head of the queue that has timed out is
      logged as failed by the sweep. */
  lemma TimedOutClientTxnLogged(n: Node, keyHash: string -> nat, now: int)
    requires |n.queue| > 0 && n.queue[0] in n.txns
    requires TimedOut(n.txns[n.queue[0]], now) && IsClientKind(n.txns[n.queue[0]].kind)
    ensures var id := n.queue[0]; var t := n.txns[id];
      Logged(t.kind, false, id, t.key, t.value) in TimeoutSweep(n, keyHash, now).log
  {
    var id := n.queue[0];
    var t := n.txns[id];
    var first := SweepOne(n, id, keyHash, now);
    var rest := SweepIds(first.node, n.queue[1..], keyHash, now);
    assert SweepIds(n, n.queue, keyHash, now).log == first.log + rest.log;
  }

  /** `checkMessages`: handle every queued message in order, then sweep. */
  function CheckMessages(n: Node, inbox: seq<Msg>, keyHash: string -> nat, now: int): (r: Step)
    ensures r.node.queue == []
    ensures SameFrame(n, r.node) && Fresh(n, r.node)
    ensures Valid(n) ==> Valid(r.node)
    ensures Answered(inbox, r.sent)
    ensures Valid(n) ==> var h := HandleAll(n, inbox, keyHash, now);
              && FromReplies(inbox, h.log)
              && r.log == h.log + TimeoutLines(h.node.txns, h.node.queue, now)
    ensures Valid(n) ==> var h := HandleAll(n, inbox, keyHash, now);
              var keys := RerunKeys(h.node.txns, h.node.queue, now);
              && r.node.nextId == h.node.nextId + |keys|
              && Padded(h.node.store, r.node.store, keys)
              && ReplicatedInOrder(h.node, r.node, keys, keyHash)
              && r.sent == h.sent + ReplicationSends(h.node.self, h.node.ring, h.node.store, keyHash, keys, h.node.nextId)
  {
    var handled := HandleAll(n, inbox, keyHash, now);
    var swept := TimeoutSweep(handled.node, keyHash, now);
    Step(swept.node, handled.sent + swept.sent, handled.log + swept.log)
  }

  // ---------------------------------------------------------------------
  // Stabilization and the ring (`stabilizationProtocol`, `updateRing`)

  /** The record `ReplicateKey` files for `key` when this node holds `c` of
      its replica slots: "deletekey" with no replies when it holds none,
      otherwise "replicate" already at one success of one reply. */
  predicate ReplicationRecord(t: Txn, key: string, c: nat) {
    && t.key == key && t.value == ""
    && t.kind == (if c == 0 then DeleteKeyKind else ReplicateKind)
    && t.success == t.count == (if c == 0 then 0 else 1)
  }

  /** The i-th key of `order` has its replication record under id
      `nextId + i`. */
  ghost predicate ReplicatedInOrder(n: Node, r: Node, order: seq<string>, keyHash: string -> nat) {
    forall i :: 0 <= i < |order| ==> ReplicatedAt(n, r, order, keyHash, i)
  }

  ghost predicate ReplicatedAt(n: Node, r: Node, order: seq<string>, keyHash: string -> nat, i: nat)
    requires i < |order|
  {
    && n.nextId + i in r.txns
    && ReplicationRecord(r.txns[n.nextId + i], order[i], SelfCount(n.self, Replicas(n.ring, keyHash, order[i])))
  }

  /** One key's CREATE under id `id`, with the stored value, to every replica
      other than this node. */
  function KeySends(self: Addr, ring: seq<RingNode>, store: Table, keyHash: string -> nat, key: string, id: int): seq<Send> {
    Broadcast(Others(self, Replicas(ring, keyHash, key)), CreateMsg(id, self, key, ReadKey(store, key), Primary))
  }

  /** The chunks of `chunks`, one after another. */
  function Flatten(chunks: seq<seq<Send>>): seq<Send>
    decreases |chunks|
  {
    if |chunks| == 0 then [] else Flatten(chunks[..|chunks| - 1]) + chunks[|chunks| - 1]
  }

  lemma FlattenSnoc(chunks: seq<seq<Send>>, c: seq<Send>)
    ensures Flatten(chunks + [c]) == Flatten(chunks) + c
  {
    assert (chunks + [c])[..|chunks|] == chunks;
  }

  /** `f` of each key of `order`, the i-th under id `id + i`. */
  function Chunks(f: (string, int) -> seq<Send>, order: seq<string>, id: int): (r: seq<seq<Send>>)
    ensures |r| == |order|
    ensures forall i :: 0 <= i < |order| ==> r[i] == f(order[i], id + i)
  {
    seq(|order|, i requires 0 <= i < |order| => f(order[i], id + i))
  }

  /** `KeySends` as a function of the key and the id. */
  function SendsFor(self: Addr, ring: seq<RingNode>, store: Table, keyHash: string -> nat): (string, int) -> seq<Send> {
    (key, id) => KeySends(self, ring, store, keyHash, key, id)
  }

  /** The CREATE messages of each key of `order`, the i-th under id
      `id + i`. */
  function KeyChunks(self: Addr, ring: seq<RingNode>, store: Table, keyHash: string -> nat, order: seq<string>, id: int): (r: seq<seq<Send>>)
    ensures |r| == |order|
    ensures forall i :: 0 <= i < |order| ==> r[i] == KeySends(self, ring, store, keyHash, order[i], id + i)
  {
    Chunks(SendsFor(self, ring, store, keyHash), order, id)
  }

  /** The CREATE messages of replicating the keys of `order` in turn, the
      i-th under id `id + i`. */
  function ReplicationSends(self: Addr, ring: seq<RingNode>, store: Table, keyHash: string -> nat, order: seq<string>, id: int): seq<Send> {
    Flatten(KeyChunks(self, ring, store, keyHash, order, id))
  }

  /** `stabilizationProtocol`: `ReplicateKey` once for every stored key.
      `order` is the order the keys were visited in (the source visits them
      in the map's key order); the i-th key visited gets id `nextId + i`. */
  method Stabilize(n: Node, keyHash: string -> nat, now: int) returns (r: Step, order: seq<string>)
    requires Valid(n)
    ensures Valid(r.node) && SameFrame(n, r.node) && r.log == []
    ensures r.node.store == n.store
    ensures |order| == |n.store.Keys|
    ensures forall k :: k in order <==> k in n.store
    ensures forall i, j :: 0 <= i < j < |order| ==> order[i] != order[j]
    ensures r.node.nextId == n.nextId + |order|
    ensures r.node.queue == n.queue + Ids(n.nextId, |order|)
    ensures Keeps(n, r.node, now)
    ensures ReplicatedInOrder(n, r.node, order, keyHash)
    ensures r.sent == ReplicationSends(n.self, n.ring, n.store, keyHash, order, n.nextId)
  {
    var remaining := n.store.Keys;
    r := Step(n, [], []);
    order := [];
    while remaining != {}
      invariant Replicating(n, r, order, keyHash, now)
      invariant Enumerating(n.store.Keys, order, remaining)
      decreases |remaining|
    {
      var k :| k in remaining;
      var s := ReplicateKey(r.node, k, keyHash, now);
      ReplicatedRecord(n, r.node, k, keyHash, now);
      ReplicateStep(n, r, order, k, s, keyHash, now);
      EnumerateStep(n.store.Keys, order, remaining, k);
      r := Step(s.node, r.sent + s.sent, []);
      order := order + [k];
      remaining := remaining - {k};
    }
  }

  /** `order` lists, without repeats, the keys handled so far: those of
      `keys` not in `remaining`. */
  ghost predicate Enumerating(keys: set<string>, order: seq<string>, remaining: set<string>) {
    && remaining <= keys
    && (forall k :: k in order <==> k in keys && k !in remaining)
    && (forall i, j :: 0 <= i < j < |order| ==> order[i] != order[j])
    && |order| + |remaining| == |keys|
  }

  lemma EnumerateStep(keys: set<string>, order: seq<string>, remaining: set<string>, k: string)
    requires Enumerating(keys, order, remaining) && k in remaining
    ensures Enumerating(keys, order + [k], remaining - {k})
  {
    var order' := order + [k];
    forall i, j | 0 <= i < j < |order'|
      ensures order'[i] != order'[j]
    {
      assert order'[i] == order[i] && order[i] in order;
      if j == |order| {
        assert order'[j] == k;
      } else {
        assert order'[j] == order[j];
      }
    }
  }

  /** Stabilization part-way through: the keys of `order` have been
      replicated, in order, on top of the starting node `n`. */
  ghost predicate Replicating(n: Node, cur: Step, order: seq<string>, keyHash: string -> nat, now: int) {
    && Valid(cur.node) && SameFrame(n, cur.node) && cur.node.store == n.store
    && cur.node.nextId == n.nextId + |order|
    && cur.node.queue == n.queue + Ids(n.nextId, |order|)
    && Keeps(n, cur.node, now)
    && ReplicatedInOrder(n, cur.node, order, keyHash)
    && cur.sent == ReplicationSends(n.self, n.ring, n.store, keyHash, order, n.nextId) && cur.log == []
  }

  /** `s` is `ReplicateKey` of the stored key `k` on top of `c`, stated in the
      frame of the starting node `n`: every record kept, the key's
      replication record filed under `c`'s next id, its CREATEs sent. */
  ghost predicate ReplicatedOne(n: Node, c: Node, s: Step, k: string, keyHash: string -> nat, now: int) {
    && Valid(s.node) && SameFrame(n, s.node) && s.node.store == n.store
    && s.node.nextId == c.nextId + 1 && s.node.queue == c.queue + [c.nextId]
    && Keeps(c, s.node, now)
    && c.nextId in s.node.txns
    && ReplicationRecord(s.node.txns[c.nextId], k, SelfCount(n.self, Replicas(n.ring, keyHash, k)))
    && s.sent == KeySends(n.self, n.ring, n.store, keyHash, k, c.nextId) && s.log == []
  }

  /** One more stored key replicated extends the stabilization by that key. */
  lemma ReplicateStep(n: Node, cur: Step, order: seq<string>, k: string, s: Step, keyHash: string -> nat, now: int)
    requires Replicating(n, cur, order, keyHash, now)
    requires ReplicatedOne(n, cur.node, s, k, keyHash, now)
    ensures Replicating(n, Step(s.node, cur.sent + s.sent, []), order + [k], keyHash, now)
  {
    var c := cur.node;
    QueueStep(n.queue, n.nextId, |order|, c.nextId);
    SendsStep(n.self, n.ring, n.store, keyHash, order, k, n.nextId, cur.sent, s.sent, c.nextId);
    ExtendOrder(n, c, s.node, order, k, keyHash, now);
    KeepsTransitive(n, c, s.node, now);
  }

  lemma QueueStep(q: seq<int>, from: int, count: nat, next: int)
    requires next == from + count
    ensures (q + Ids(from, count)) + [next] == q + Ids(from, count + 1)
  {
    IdsSnoc(from, count);
  }

  /** The sends so far, followed by the CREATEs of the next key under the
      next id, are the sends of the longer order. */
  lemma SendsStep(self: Addr, ring: seq<RingNode>, store: Table, keyHash: string -> nat, order: seq<string>, k: string, id: int,
                  prefix: seq<Send>, tail: seq<Send>, next: int)
    requires prefix == ReplicationSends(self, ring, store, keyHash, order, id)
    requires next == id + |order| && tail == KeySends(self, ring, store, keyHash, k, next)
    ensures prefix + tail == ReplicationSends(self, ring, store, keyHash, order + [k], id)
  {
    ExtendSends(self, ring, store, keyHash, order, k, id, next);
  }

  /** What `ReplicateKey` does for a stored key on a node in `n`'s frame. */
  lemma ReplicatedRecord(n: Node, c: Node, k: string, keyHash: string -> nat, now: int)
    requires Valid(c) && SameFrame(n, c) && c.store == n.store && k in n.store
    ensures ReplicatedOne(n, c, ReplicateKey(c, k, keyHash, now), k, keyHash, now)
  {
  }

  lemma KeepsTransitive(a: Node, b: Node, c: Node, now: int)
    requires Keeps(a, b, now) && Keeps(b, c, now)
    ensures Keeps(a, c, now)
  {
  }

  /** The records of `order` stay in place when the next key's record is
      added under the next id. */
  lemma ExtendOrder(n: Node, cur: Node, s: Node, order: seq<string>, k: string, keyHash: string -> nat, now: int)
    requires ReplicatedInOrder(n, cur, order, keyHash) && cur.nextId == n.nextId + |order|
    requires Keeps(cur, s, now)
    requires cur.nextId in s.txns && ReplicationRecord(s.txns[cur.nextId], k, SelfCount(n.self, Replicas(n.ring, keyHash, k)))
    ensures ReplicatedInOrder(n, s, order + [k], keyHash)
  {
    var order' := order + [k];
    forall i | 0 <= i < |order'|
      ensures ReplicatedAt(n, s, order', keyHash, i)
    {
      if i < |order| {
        assert ReplicatedAt(n, cur, order, keyHash, i);
        assert order'[i] == order[i];
        assert n.nextId + i in cur.txns;
      } else {
        assert order'[i] == k && n.nextId + i == cur.nextId;
      }
    }
  }

  /** The sends of one more key continue the stabilization's sends. */
  lemma ExtendSends(self: Addr, ring: seq<RingNode>, store: Table, keyHash: string -> nat, order: seq<string>, k: string, id: int, next: int)
    requires next == id + |order|
    ensures ReplicationSends(self, ring, store, keyHash, order + [k], id)
         == ReplicationSends(self, ring, store, keyHash, order, id) + KeySends(self, ring, store, keyHash, k, next)
  {
    var c := KeySends(self, ring, store, keyHash, k, next);
    var chunks := KeyChunks(self, ring, store, keyHash, order, id);
    var chunks' := KeyChunks(self, ring, store, keyHash, order + [k], id);
    forall i | 0 <= i < |order|
      ensures chunks'[i] == chunks[i]
    {
      assert (order + [k])[i] == order[i];
    }
    assert chunks'[..|order|] == chunks;
    assert chunks'[|order|] == c;
    assert chunks' == chunks'[..|order|] + [chunks'[|order|]];
    FlattenSnoc(chunks, c);
  }

  /** `getMembershipList`: a ring node for every membership entry, then one
      for this node. */
  function MembershipNodes(self: Addr, list: seq<Membership.Entry>, addrHash: Addr -> nat): (r: seq<RingNode>)
    ensures |r| == |list| + 1 && r[|list|] == RingNode(self, Position(addrHash(self)))
    ensures forall i :: 0 <= i < |list| ==> r[i].addr == Membership.AddrOf(list[i])
  {
    if |list| == 0 then [RingNode(self, Position(addrHash(self)))]
    else
      var a := Membership.AddrOf(list[0]);
      [RingNode(a, Position(addrHash(a)))] + MembershipNodes(self, list[1..], addrHash)
  }

  /** `updateRing`: sort the current membership into a ring; install it and
      stabilize only when it has more than one node and differs from the ring
      in place, otherwise leave the node as it is. */
  method UpdateRing(n: Node, list: seq<Membership.Entry>, addrHash: Addr -> nat, keyHash: string -> nat, now: int)
    returns (r: Step, changed: bool, order: seq<string>)
    requires Valid(n)
    ensures Valid(r.node) && r.node.self == n.self && r.log == []
    ensures var candidate := SortByHash(MembershipNodes(n.self, list, addrHash));
      && (changed <==> |candidate| > 1 && candidate != n.ring)
      && (changed ==> r.node.ring == candidate)
      && (changed ==>
            && ReplicatedInOrder(n.(ring := candidate), r.node, order, keyHash)
            && r.sent == ReplicationSends(n.self, candidate, n.store, keyHash, order, n.nextId))
    ensures changed ==> SortedByHash(r.node.ring)
    ensures changed ==> multiset(r.node.ring) == multiset(MembershipNodes(n.self, list, addrHash))
    ensures changed ==> r.node.store == n.store && r.node.nextId == n.nextId + |order|
    ensures changed ==> Keeps(n, r.node, now) && r.node.queue == n.queue + Ids(n.nextId, |order|)
    ensures changed ==> (forall k :: k in order <==> k in n.store) && |order| == |n.store.Keys|
    ensures changed ==> forall i, j :: 0 <= i < j < |order| ==> order[i] != order[j]
    ensures !changed ==> r == Step(n, [], []) && order == []
  {
    var candidate := SortByHash(MembershipNodes(n.self, list, addrHash));
    if |candidate| > 1 && candidate != n.ring {
      r, order := Stabilize(n.(ring := candidate), keyHash, now);
      changed := true;
    } else {
      r := Step(n, [], []);
      changed := false;
      order := [];
    }
  }
}

=== FILE: fixed.dfy ===
/**
  Fixed-width integers and their little-endian byte layout.

  The membership protocol copies native integers into message buffers with
  `memcpy`: a 4-byte `int` node id, a 2-byte `short` port and an 8-byte `long`
  heartbeat.  This module gives those widths explicit ranges and a two's
  complement little-endian encoding, with the round trip proved once for every
  width.
 */
module Fixed {

  type byte = x: int | 0 <= x < 256

  /** The C++ `short`, `int` and `long` of the simulator's platform. */
  type Int16 = x: int | -0x8000 <= x < 0x8000
  type Int32 = x: int | -0x8000_0000 <= x < 0x8000_0000
  type Int64 = x: int | -0x8000_0000_0000_0000 <= x < 0x8000_0000_0000_0000

  const MaxInt64: Int64 := 0x7FFF_FFFF_FFFF_FFFF

  function Pow256(n: nat): (r: nat)
    ensures r >= 1
  {
    if n == 0 then 1 else 256 * Pow256(n - 1)
  }

  lemma Pow256Values()
    ensures Pow256(2) == 0x1_0000
    ensures Pow256(4) == 0x1_0000_0000
    ensures Pow256(8) == 0x1_0000_0000_0000_0000
  {
    assert Pow256(1) == 256;
    assert Pow256(2) == 256 * 256;
    assert Pow256(3) == 256 * 256 * 256;
    assert Pow256(4) == 256 * 256 * 256 * 256;
    assert Pow256(5) == 256 * Pow256(4);
    assert Pow256(6) == 256 * Pow256(5);
    assert Pow256(7) == 256 * Pow256(6);
  }

  /** Increment of a `long`.  Overflow of a signed integer is undefined in
      C++; `heartbeat++` at the top of the range is modelled here as a two's
      complement wrap to the most negative value. */
  function WrapIncrement(v: Int64): (r: Int64)
    ensures v < MaxInt64 ==> r == v + 1
    ensures v == MaxInt64 ==> r < v
  {
    if v == MaxInt64 then -0x8000_0000_0000_0000 else v + 1
  }

  /** Little-endian encoding of an unsigned value in `width` bytes. */
  function EncodeUnsigned(v: nat, width: nat): (bs: seq<byte>)
    requires v < Pow256(width)
    ensures |bs| == width
  {
    if width == 0 then []
    else
      assert v / 256 < Pow256(width - 1);
      [v % 256] + EncodeUnsigned(v / 256, width - 1)
  }

  /** Reads a little-endian unsigned value; every byte string denotes one. */
  function DecodeUnsigned(bs: seq<byte>): (v: nat)
    ensures v < Pow256(|bs|)
  {
    if |bs| == 0 then 0 else bs[0] + 256 * DecodeUnsigned(bs[1..])
  }

  lemma {:induction false} UnsignedRoundTrip(v: nat, width: nat)
    requires v < Pow256(width)
    ensures DecodeUnsigned(EncodeUnsigned(v, width)) == v
  {
    if width > 0 {
      var bs := EncodeUnsigned(v, width);
      assert bs[1..] == EncodeUnsigned(v / 256, width - 1);
      UnsignedRoundTrip(v / 256, width - 1);
    }
  }

  /** The opposite direction: a byte string is the encoding of what it decodes
      to, so the decoder is injective on strings of one width. */
  lemma {:induction false} UnsignedReencode(bs: seq<byte>)
    ensures EncodeUnsigned(DecodeUnsigned(bs), |bs|) == bs
  {
    if |bs| > 0 {
      UnsignedReencode(bs[1..]);
      var v := DecodeUnsigned(bs);
      assert v % 256 == bs[0];
      assert v / 256 == DecodeUnsigned(bs[1..]);
    }
  }

  /** Half the range of `width` bytes: the bound of a signed value. */
  function Half(width: nat): int {
    Pow256(width) / 2
  }

  lemma HalfDoubles(width: nat)
    requires width > 0
    ensures Pow256(width) == 2 * Half(width)
  {
    assert Pow256(width) == 2 * (128 * Pow256(width - 1));
  }

  /** Two's complement: negative values are stored as `v + 256^width`. */
  function EncodeSigned(v: int, width: nat): (bs: seq<byte>)
    requires width > 0 && -Half(width) <= v < Half(width)
    ensures |bs| == width
  {
    EncodeUnsigned(if v < 0 then v + Pow256(width) else v, width)
  }

  function DecodeSigned(bs: seq<byte>): (v: int)
    ensures |bs| > 0 ==> -Half(|bs|) <= v < Half(|bs|)
  {
    var u := DecodeUnsigned(bs);
    if |bs| > 0 && u >= Pow256(|bs|) / 2 then HalfDoubles(|bs|); u - Pow256(|bs|)
    else if |bs| > 0 then HalfDoubles(|bs|); u
    else u
  }

  lemma SignedRoundTrip(v: int, width: nat)
    requires width > 0 && -Half(width) <= v < Half(width)
    ensures DecodeSigned(EncodeSigned(v, width)) == v
  {
    var u := if v < 0 then v + Pow256(width) else v;
    UnsignedRoundTrip(u, width);
    assert Pow256(width) == 256 * Pow256(width - 1);
  }

  /** Every non-empty byte string is the two's complement encoding of what
      it decodes to, so no two strings of one width decode alike. */
  lemma SignedReencode(bs: seq<byte>)
    requires |bs| > 0
    ensures EncodeSigned(DecodeSigned(bs), |bs|) == bs
  {
    UnsignedReencode(bs);
    HalfDoubles(|bs|);
  }

  function EncodeInt16(v: Int16): (bs: seq<byte>)
    ensures |bs| == 2
  {
    Pow256Values();
    EncodeSigned(v, 2)
  }

  function EncodeInt32(v: Int32): (bs: seq<byte>)
    ensures |bs| == 4
  {
    Pow256Values();
    EncodeSigned(v, 4)
  }

  function EncodeInt64(v: Int64): (bs: seq<byte>)
    ensures |bs| == 8
  {
    Pow256Values();
    EncodeSigned(v, 8)
  }

  function DecodeInt16(bs: seq<byte>): Int16
    requires |bs| == 2
  {
    Pow256Values();
    DecodeSigned(bs)
  }

  function DecodeInt32(bs: seq<byte>): Int32
    requires |bs| == 4
  {
    Pow256Values();
    DecodeSigned(bs)
  }

  function DecodeInt64(bs: seq<byte>): Int64
    requires |bs| == 8
  {
    Pow256Values();
    DecodeSigned(bs)
  }

  lemma Int16RoundTrip(v: Int16)
    ensures DecodeInt16(EncodeInt16(v)) == v
  {
    Pow256Values();
    SignedRoundTrip(v, 2);
  }

  lemma Int32RoundTrip(v: Int32)
    ensures DecodeInt32(EncodeInt32(v)) == v
  {
    Pow256Values();
    SignedRoundTrip(v, 4);
  }

  lemma Int64RoundTrip(v: Int64)
    ensures DecodeInt64(EncodeInt64(v)) == v
  {
    Pow256Values();
    SignedRoundTrip(v, 8);
  }
}

=== FILE: membership.dfy ===
/**
  The gossip membership protocol of one node (mp2/MP1Node.cpp).

  A node keeps `memberList`, a vector of (id, port, heartbeat, timestamp)
  entries, and `nodetable`, a map from a peer's address to its index in that
  vector.  Heartbeats arrive in HEARTBEAT messages and are merged monotonically;
  a JOINREQ adds the requester and answers with the whole list; every round the
  node bumps its own heartbeat, evicts entries older than TREMOVE by
  swap-remove, and gossips its own pair and the entries not older than TFAIL
  to up to two randomly picked entries of its list.

  The clock (`par->getcurrtime()`) and `rand()` are parameters; the network is
  the list of packets each operation returns.
 */
module Membership {
  import opened Fixed
  import opened Wire

  /** Age beyond which an entry is no longer gossiped. */
  const TFail := 5
  /** Age beyond which an entry is removed. */
  const TRemove := 20

  /** `MemberListEntry`. */
  datatype Entry = Entry(id: Int32, port: Int16, heartbeat: Int64, timestamp: int)

  function AddrOf(e: Entry): Addr {
    Addr(e.id, e.port)
  }

  /** `memberList` together with `nodetable`. */
  datatype View = View(list: seq<Entry>, table: map<Addr, int>)

  /** The membership state of `Member` that this protocol touches. */
  datatype Member = Member(
    self: Addr,
    failed: bool,
    inGroup: bool,
    heartbeat: Int64,
    list: seq<Entry>,
    table: map<Addr, int>)
  {
    function AsView(): View {
      View(list, table)
    }
  }

  datatype Packet = Packet(to: Addr, data: seq<byte>)

  /** The new state of a handler and the packets it sends. */
  datatype Outcome = Outcome(member: Member, sent: seq<Packet>)

  /** Every address in `nodetable` points at an entry with that address. */
  ghost predicate Indexed(v: View) {
    forall k :: k in v.table ==> 0 <= v.table[k] < |v.list| && AddrOf(v.list[v.table[k]]) == k
  }

  /** `nodetable` is exactly the inverse of `memberList`: one entry per
      address and every entry indexed at its own position. */
  ghost predicate Consistent(v: View) {
    && Indexed(v)
    && forall i :: 0 <= i < |v.list| ==> AddrOf(v.list[i]) in v.table && v.table[AddrOf(v.list[i])] == i
  }

  predicate Suspect(e: Entry, now: int) {
    now - e.timestamp > TFail
  }

  predicate Expired(e: Entry, now: int) {
    now - e.timestamp > TRemove
  }

  function PairOf(e: Entry): Pair {
    Pair(e.heartbeat, AddrOf(e))
  }

  function NewEntry(p: Pair, now: int): (e: Entry)
    ensures PairOf(e) == p && e.timestamp == now
  {
    Entry(p.addr.id, p.addr.port, p.heartbeat, now)
  }

  // ---------------------------------------------------------------------
  // Start-up

  /** `initThisNode`: alive, not yet in the group, heartbeat 0, empty list. */
  function InitThisNode(self: Addr): (m: Member)
    ensures Consistent(m.AsView()) && !m.inGroup && !m.failed && m.heartbeat == 0
    ensures m.list == [] && m.self == self
  {
    Member(self, false, false, 0, [], map[])
  }

  /** `introduceSelfToGroup`: the introducer boots the group; anyone else
      sends a JOINREQ with its address and heartbeat to the introducer. */
  function IntroduceSelfToGroup(m: Member, joinAddr: Addr): (o: Outcome)
    ensures m.self == joinAddr ==> o.member == m.(inGroup := true) && o.sent == []
    ensures m.self != joinAddr ==> o.member == m
    ensures m.self != joinAddr ==> o.sent == [Packet(joinAddr, EncodeJoinReq(m.self, m.heartbeat))]
  {
    if m.self == joinAddr then Outcome(m.(inGroup := true), [])
    else Outcome(m, [Packet(joinAddr, EncodeJoinReq(m.self, m.heartbeat))])
  }

  // ---------------------------------------------------------------------
  // Heartbeat merge (`updatetables`)

  /** Entries known before keep their place and address; their heartbeats
      never go down, and an entry whose heartbeat did not move is untouched.
      Every address known before keeps its index. */
  ghost predicate Grows(m: Member, r: Member) {
    && |m.list| <= |r.list|
    && (forall i :: 0 <= i < |m.list| ==>
          && AddrOf(r.list[i]) == AddrOf(m.list[i])
          && r.list[i].heartbeat >= m.list[i].heartbeat
          && (r.list[i].heartbeat == m.list[i].heartbeat ==> r.list[i] == m.list[i]))
    && (forall k :: k in m.table ==> k in r.table && r.table[k] == m.table[k])
  }

  /** Everything but the list and the table is left alone. */
  ghost predicate SameNode(m: Member, r: Member) {
    r.self == m.self && r.failed == m.failed && r.inGroup == m.inGroup && r.heartbeat == m.heartbeat
  }

  /** One (heartbeat, address) pair of a HEARTBEAT message. */
  function MergePair(m: Member, p: Pair, now: int): (r: Member)
    requires Indexed(m.AsView())
    ensures Indexed(r.AsView()) && SameNode(m, r) && Grows(m, r)
    ensures FromPairs(m, r, [p], now)
    ensures p.addr == m.self ==> r == m
    ensures p.addr != m.self && p.addr !in m.table ==>
              && r.list == m.list + [NewEntry(p, now)]
              && r.table == m.table[p.addr := |m.list|]
    ensures p.addr != m.self && p.addr in m.table ==>
              && r.table == m.table
              && (p.heartbeat > m.list[m.table[p.addr]].heartbeat ==>
                    r.list == m.list[m.table[p.addr] := NewEntry(p, now)])
              && (p.heartbeat <= m.list[m.table[p.addr]].heartbeat ==> r.list == m.list)
  {
    if p.addr == m.self then m
    else if p.addr !in m.table then
      m.(table := m.table[p.addr := |m.list|], list := m.list + [NewEntry(p, now)])
    else
      var i := m.table[p.addr];
      if p.heartbeat > m.list[i].heartbeat then
        m.(list := m.list[i := m.list[i].(heartbeat := p.heartbeat, timestamp := now)])
      else m
  }

  /** After a pair from another node is merged, that node is known with at
      least the heartbeat the pair carried. */
  lemma MergePairRecordsPeer(m: Member, p: Pair, now: int)
    requires Indexed(m.AsView()) && p.addr != m.self
    ensures var r := MergePair(m, p, now);
      p.addr in r.table && r.list[r.table[p.addr]].heartbeat >= p.heartbeat
  {
  }

  /** Merging the same pair twice has the effect of merging it once: a
      duplicate or replayed heartbeat changes nothing. */
  lemma MergePairIdempotent(m: Member, p: Pair, now: int, later: int)
    requires Indexed(m.AsView())
    ensures var r := MergePair(m, p, now); MergePair(r, p, later) == r
  {
  }

  lemma GrowsTransitive(a: Member, b: Member, c: Member)
    requires Grows(a, b) && Grows(b, c)
    ensures Grows(a, c)
  {
  }

  /** The address of `p` is known with at least the heartbeat `p` carries. */
  ghost predicate Recorded(r: Member, p: Pair)
    requires Indexed(r.AsView())
  {
    p.addr in r.table && r.list[r.table[p.addr]].heartbeat >= p.heartbeat
  }

  /** Nothing but the pairs is written: every entry of `r` is the entry `m`
      held at that index or was written from one of `ps` at time `now`, and
      every newly indexed address is named by one of `ps`. */
  ghost predicate FromPairs(m: Member, r: Member, ps: seq<Pair>, now: int) {
    && (forall i :: 0 <= i < |r.list| ==>
          (i < |m.list| && r.list[i] == m.list[i]) || (r.list[i].timestamp == now && PairOf(r.list[i]) in ps))
    && (forall k :: k in r.table && k !in m.table ==> exists p :: p in ps && p.addr == k)
  }

  lemma FromPairsTransitive(a: Member, b: Member, c: Member, p: Pair, ps: seq<Pair>, now: int)
    requires FromPairs(a, b, [p], now) && FromPairs(b, c, ps, now)
    ensures FromPairs(a, c, [p] + ps, now)
  {
    forall i | 0 <= i < |c.list|
      ensures (i < |a.list| && c.list[i] == a.list[i]) || (c.list[i].timestamp == now && PairOf(c.list[i]) in [p] + ps)
    {
      if !(c.list[i].timestamp == now && PairOf(c.list[i]) in ps) {
        assert i < |b.list| && c.list[i] == b.list[i];
      }
    }
    forall k | k in c.table && k !in a.table
      ensures exists q :: q in [p] + ps && q.addr == k
    {
      if k in b.table && k !in a.table {
        assert p in [p] + ps && p.addr == k;
      } else {
        var q :| q in ps && q.addr == k;
        assert q in [p] + ps;
      }
    }
  }

  /** The pairs of one message, in order: afterwards every pair from another
      node is recorded, and nothing else was written. */
  function MergeAll(m: Member, ps: seq<Pair>, now: int): (r: Member)
    requires Indexed(m.AsView())
    ensures Indexed(r.AsView()) && SameNode(m, r) && Grows(m, r)
    ensures m.self !in m.table ==> m.self !in r.table
    ensures forall p :: p in ps && p.addr != m.self ==> Recorded(r, p)
    ensures FromPairs(m, r, ps, now)
    decreases |ps|
  {
    if |ps| == 0 then m
    else
      var m1 := MergePair(m, ps[0], now);
      var r := MergeAll(m1, ps[1..], now);
      if ps[0].addr != m.self then MergePairRecordsPeer(m, ps[0], now); MergeAllStep(m, m1, r, ps, now); r
      else MergeAllStep(m, m1, r, ps, now); r
  }

  /** One step of `MergeAll`: the first pair's merge followed by the rest. */
  lemma MergeAllStep(m: Member, m1: Member, r: Member, ps: seq<Pair>, now: int)
    requires |ps| > 0 && Indexed(m.AsView()) && Indexed(m1.AsView()) && Indexed(r.AsView())
    requires SameNode(m, m1) && Grows(m, m1) && FromPairs(m, m1, [ps[0]], now)
    requires m.self !in m.table ==> m.self !in m1.table
    requires ps[0].addr != m.self ==> Recorded(m1, ps[0])
    requires SameNode(m1, r) && Grows(m1, r) && FromPairs(m1, r, ps[1..], now)
    requires m1.self !in m1.table ==> m1.self !in r.table
    requires forall p :: p in ps[1..] && p.addr != m1.self ==> Recorded(r, p)
    ensures SameNode(m, r) && Grows(m, r) && FromPairs(m, r, ps, now)
    ensures m.self !in m.table ==> m.self !in r.table
    ensures forall p :: p in ps && p.addr != m.self ==> Recorded(r, p)
  {
    GrowsTransitive(m, m1, r);
    assert ps == [ps[0]] + ps[1..];
    FromPairsTransitive(m, m1, r, ps[0], ps[1..], now);
    assert forall p :: p in ps ==> p == ps[0] || p in ps[1..];
  }

  /** `updatetables`: walk the pairs after the header and merge each one.  A
      buffer that does not split into whole pairs is ignored. */
  function UpdateTables(m: Member, data: seq<byte>, now: int): (r: Member)
    requires Indexed(m.AsView())
    ensures Indexed(r.AsView()) && SameNode(m, r) && Grows(m, r)
    ensures DecodeHeartbeat(data).None? ==> r == m
    ensures m.self !in m.table ==> m.self !in r.table
    ensures DecodeHeartbeat(data).Some? ==>
              forall p :: p in DecodeHeartbeat(data).value && p.addr != m.self ==> Recorded(r, p)
    ensures DecodeHeartbeat(data).Some? ==> FromPairs(m, r, DecodeHeartbeat(data).value, now)
  {
    match DecodeHeartbeat(data)
    case None => m
    case Some(ps) => MergeAll(m, ps, now)
  }

  /** A stored heartbeat never decreases, and an address once known stays
      known at the same index, whatever HEARTBEAT message arrives. */
  lemma HeartbeatsNeverDecrease(m: Member, data: seq<byte>, now: int, k: Addr)
    requires Indexed(m.AsView()) && k in m.table
    ensures var r := UpdateTables(m, data, now);
      && k in r.table && r.table[k] == m.table[k]
      && r.list[r.table[k]].heartbeat >= m.list[m.table[k]].heartbeat
  {
  }

  // ---------------------------------------------------------------------
  // Gossip payload (`sendML`)

  /** The entries `sendML` writes: those not older than TFAIL, in list
      order. */
  function Gossiped(list: seq<Entry>, now: int): (ps: seq<Pair>)
    ensures |ps| <= |list|
    ensures forall e :: e in list && !Suspect(e, now) ==> PairOf(e) in ps
    ensures forall p :: p in ps ==> exists e :: e in list && !Suspect(e, now) && PairOf(e) == p
  {
    if |list| == 0 then []
    else
      var rest := Gossiped(list[1..], now);
      assert forall e :: e in list[1..] ==> e in list;
      if Suspect(list[0], now) then rest else [PairOf(list[0])] + rest
  }

  function CountSuspects(list: seq<Entry>, now: int): nat {
    if |list| == 0 then 0
    else (if Suspect(list[0], now) then 1 else 0) + CountSuspects(list[1..], now)
  }

  /** Each skipped entry removes exactly one pair from the payload. */
  lemma {:induction false} GossipedSize(list: seq<Entry>, now: int)
    ensures |Gossiped(list, now)| == |list| - CountSuspects(list, now)
  {
    if |list| > 0 {
      GossipedSize(list[1..], now);
    }
  }

  /** Order is kept: gossiping a concatenation gossips each part in turn. */
  lemma {:induction false} GossipedAppend(a: seq<Entry>, b: seq<Entry>, now: int)
    ensures Gossiped(a + b, now) == Gossiped(a, now) + Gossiped(b, now)
  {
    if |a| > 0 {
      assert (a + b)[1..] == a[1..] + b;
      GossipedAppend(a[1..], b, now);
    } else {
      assert a + b == b;
    }
  }

  /** `sendML`: the sender's own heartbeat and address, then the fresh
      entries. */
  function SendML(m: Member, now: int): (data: seq<byte>)
    ensures |data| == HeaderSize + PairSize * (|m.list| + 1) - PairSize * CountSuspects(m.list, now)
  {
    GossipedSize(m.list, now);
    EncodeHeartbeat(Pair(m.heartbeat, m.self), Gossiped(m.list, now))
  }

  /** What `updatetables` reads from a `sendML` buffer is exactly what
      `sendML` wrote: the sender's pair, then the fresh entries in order. */
  lemma SendMLDecodes(m: Member, now: int)
    ensures DecodeHeader(SendML(m, now)) == Some(Heartbeat)
    ensures DecodeHeartbeat(SendML(m, now)) == Some([Pair(m.heartbeat, m.self)] + Gossiped(m.list, now))
  {
    HeartbeatRoundTrip(Pair(m.heartbeat, m.self), Gossiped(m.list, now));
  }

  // ---------------------------------------------------------------------
  // Join handling (`joinreq`)

  /** `joinreq`: append the requester with its heartbeat and the current time,
      index it unless its address is already indexed (`insert` keeps the old
      index), and send it the whole list as a HEARTBEAT. */
  function OnJoinReq(m: Member, data: seq<byte>, now: int): (o: Outcome)
    requires Indexed(m.AsView())
    ensures Indexed(o.member.AsView()) && SameNode(m, o.member) && Grows(m, o.member)
    ensures DecodeJoinReq(data).None? ==> o == Outcome(m, [])
    ensures DecodeJoinReq(data).Some? ==>
              var p := DecodeJoinReq(data).value;
              && o.member.list == m.list + [NewEntry(p, now)]
              && o.sent == [Packet(p.addr, SendML(o.member, now))]
  {
    match DecodeJoinReq(data)
    case None => Outcome(m, [])
    case Some(p) =>
      var m1 := AppendPeer(m, p, now);
      Outcome(m1, [Packet(p.addr, SendML(m1, now))])
  }

  /** `nodetable.insert` then `push_back`: the entry always goes at the end,
      the index only for an address not yet indexed. */
  function AppendPeer(m: Member, p: Pair, now: int): (r: Member)
    requires Indexed(m.AsView())
    ensures Indexed(r.AsView()) && SameNode(m, r) && Grows(m, r)
    ensures r.list == m.list + [NewEntry(p, now)]
    ensures p.addr in r.table
    ensures p.addr in m.table ==> r.table == m.table
    ensures p.addr !in m.table ==> r.table[p.addr] == |m.list|
  {
    var r := m.(list := m.list + [NewEntry(p, now)],
                table := if p.addr in m.table then m.table else m.table[p.addr := |m.list|]);
    assert forall i :: 0 <= i < |m.list| ==> r.list[i] == m.list[i];
    r
  }

  /** A join from an address not yet known keeps `nodetable` the exact
      inverse of `memberList`. */
  lemma JoinOfNewPeerKeepsConsistent(m: Member, data: seq<byte>, now: int)
    requires Consistent(m.AsView())
    requires DecodeJoinReq(data).Some? && DecodeJoinReq(data).value.addr !in m.table
    ensures Consistent(OnJoinReq(m, data, now).member.AsView())
  {
  }

  /** A second join from a known address leaves a duplicate entry that
      `nodetable` does not index, as the source does. */
  lemma JoinOfKnownPeerDuplicates(m: Member, data: seq<byte>, now: int)
    requires Consistent(m.AsView())
    requires DecodeJoinReq(data).Some? && DecodeJoinReq(data).value.addr in m.table
    ensures !Consistent(OnJoinReq(m, data, now).member.AsView())
  {
    var r := OnJoinReq(m, data, now).member;
    var last := |r.list| - 1;
    assert AddrOf(r.list[last]) == DecodeJoinReq(data).value.addr;
  }

  // ---------------------------------------------------------------------
  // Message dispatch (`recvCallBack`, `checkMessages`)

  /** `recvCallBack`: a JOINREQ is answered; any HEARTBEAT puts the node in
      the group and is merged; any other type is dropped. */
  function RecvCallBack(m: Member, data: seq<byte>, now: int): (o: Outcome)
    requires Indexed(m.AsView())
    ensures Indexed(o.member.AsView()) && Grows(m, o.member)
    ensures o.member.self == m.self && o.member.failed == m.failed && o.member.heartbeat == m.heartbeat
    ensures o.member.inGroup == (m.inGroup || DecodeHeader(data) == Some(Heartbeat))
    ensures DecodeHeader(data) != Some(JoinReq) ==> o.sent == []
    ensures IsJoinReq(data) ==> o.sent == [Packet(DecodeJoinReq(data).value.addr, SendML(o.member, now))]
    ensures !IsJoinReq(data) ==> o.sent == []
    ensures DecodeHeader(data) == Some(Heartbeat) && DecodeHeartbeat(data).Some? ==>
              forall p :: p in DecodeHeartbeat(data).value && p.addr != m.self ==> Recorded(o.member, p)
  {
    match DecodeHeader(data)
    case Some(JoinReq) => OnJoinReq(m, data, now)
    case Some(Heartbeat) => Outcome(UpdateTables(m.(inGroup := true), data, now), [])
    case _ => Outcome(m, [])
  }

  /** A JOINREQ whose address and heartbeat can be read. */
  predicate IsJoinReq(data: seq<byte>) {
    DecodeHeader(data) == Some(JoinReq) && DecodeJoinReq(data).Some?
  }

  /** The requesters of the readable JOINREQs of the inbox, in order. */
  function Requesters(inbox: seq<seq<byte>>): seq<Addr> {
    if |inbox| == 0 then []
    else (if IsJoinReq(inbox[0]) then [DecodeJoinReq(inbox[0]).value.addr] else []) + Requesters(inbox[1..])
  }

  /** A requester is listed exactly when a readable JOINREQ of the inbox
      carries its address. */
  lemma {:induction false} RequestersListed(inbox: seq<seq<byte>>, a: Addr)
    ensures a in Requesters(inbox) <==> exists d :: d in inbox && IsJoinReq(d) && DecodeJoinReq(d).value.addr == a
  {
    if |inbox| > 0 {
      RequestersListed(inbox[1..], a);
      assert forall d :: d in inbox <==> d == inbox[0] || d in inbox[1..];
    }
  }

  /** The destinations of a run of packets, in order. */
  function Targets(sent: seq<Packet>): (r: seq<Addr>)
    ensures |r| == |sent| && forall k :: 0 <= k < |sent| ==> r[k] == sent[k].to
  {
    if |sent| == 0 then [] else [sent[0].to] + Targets(sent[1..])
  }

  /** Some buffer of the inbox is a HEARTBEAT. */
  ghost predicate HeartbeatIn(inbox: seq<seq<byte>>) {
    exists d :: d in inbox && DecodeHeader(d) == Some(Heartbeat)
  }

  /** Every pair from another node in a readable HEARTBEAT of the inbox is
      recorded in `r`. */
  ghost predicate RecordsHeartbeats(self: Addr, r: Member, inbox: seq<seq<byte>>) {
    && Indexed(r.AsView())
    && forall d, p ::
         (d in inbox && DecodeHeader(d) == Some(Heartbeat) && DecodeHeartbeat(d).Some?
          && p in DecodeHeartbeat(d).value && p.addr != self) ==> Recorded(r, p)
  }

  /** One packet per readable JOINREQ, in order, each to its requester. */
  ghost predicate AnswersJoins(inbox: seq<seq<byte>>, sent: seq<Packet>) {
    Targets(sent) == Requesters(inbox)
  }

  /** A recorded pair stays recorded as the table grows. */
  lemma RecordedGrows(r: Member, r': Member, p: Pair)
    requires Indexed(r.AsView()) && Indexed(r'.AsView()) && Grows(r, r') && Recorded(r, p)
    ensures Recorded(r', p)
  {
    assert r.table[p.addr] < |r.list|;
  }

  /** The group rule over the first buffer and then the rest. */
  lemma GroupStep(inbox: seq<seq<byte>>, before: bool, mid: bool, after: bool)
    requires |inbox| > 0
    requires mid == (before || DecodeHeader(inbox[0]) == Some(Heartbeat))
    requires after == (mid || HeartbeatIn(inbox[1..]))
    ensures after == (before || HeartbeatIn(inbox))
  {
    assert forall d :: d in inbox <==> d == inbox[0] || d in inbox[1..];
  }

  /** The HEARTBEATs recorded by the first buffer and by the rest. */
  lemma RecordsStep(self: Addr, first: Member, rest: Member, inbox: seq<seq<byte>>)
    requires |inbox| > 0 && Indexed(first.AsView()) && Grows(first, rest)
    requires DecodeHeader(inbox[0]) == Some(Heartbeat) && DecodeHeartbeat(inbox[0]).Some? ==>
               forall p :: p in DecodeHeartbeat(inbox[0]).value && p.addr != self ==> Recorded(first, p)
    requires RecordsHeartbeats(self, rest, inbox[1..])
    ensures RecordsHeartbeats(self, rest, inbox)
  {
    forall d, p | d in inbox && DecodeHeader(d) == Some(Heartbeat) && DecodeHeartbeat(d).Some?
                  && p in DecodeHeartbeat(d).value && p.addr != self
      ensures Recorded(rest, p)
    {
      if d !in inbox[1..] {
        assert d == inbox[0];
        RecordedGrows(first, rest, p);
      }
    }
  }

  /** The JOINREQ answers of the first buffer followed by the rest's. */
  lemma JoinsStep(inbox: seq<seq<byte>>, first: seq<Packet>, rest: seq<Packet>)
    requires |inbox| > 0
    requires Targets(first) == if IsJoinReq(inbox[0]) then [DecodeJoinReq(inbox[0]).value.addr] else []
    requires AnswersJoins(inbox[1..], rest)
    ensures AnswersJoins(inbox, first + rest)
  {
    assert Targets(first + rest) == Targets(first) + Targets(rest);
  }

  /** `checkMessages`: every queued buffer in arrival order.  The node is in
      the group afterwards exactly when it was before or a HEARTBEAT arrived;
      every pair of a readable HEARTBEAT is recorded; every readable JOINREQ,
      and nothing else, is answered. */
  function CheckMessages(m: Member, inbox: seq<seq<byte>>, now: int): (o: Outcome)
    requires Indexed(m.AsView())
    ensures Indexed(o.member.AsView()) && Grows(m, o.member)
    ensures o.member.self == m.self && o.member.failed == m.failed && o.member.heartbeat == m.heartbeat
    ensures o.member.inGroup == (m.inGroup || HeartbeatIn(inbox))
    ensures RecordsHeartbeats(m.self, o.member, inbox)
    ensures AnswersJoins(inbox, o.sent)
    decreases |inbox|
  {
    if |inbox| == 0 then Outcome(m, [])
    else
      var first := RecvCallBack(m, inbox[0], now);
      var rest := CheckMessages(first.member, inbox[1..], now);
      GrowsTransitive(m, first.member, rest.member);
      GroupStep(inbox, m.inGroup, first.member.inGroup, rest.member.inGroup);
      RecordsStep(m.self, first.member, rest.member, inbox);
      JoinsStep(inbox, first.sent, rest.sent);
      Outcome(rest.member, first.sent + rest.sent)
  }

  // ---------------------------------------------------------------------
  // Eviction (`nodeLoopOps`, first half)

  lemma SwapInsideMultiset(s: seq<Entry>, i: nat)
    requires i < |s| - 1
    ensures multiset(s[i := s[|s| - 1]][..|s| - 1]) == multiset(s) - multiset{s[i]}
  {
    var last := |s| - 1;
    var a, b := s[..i], s[i + 1..last];
    assert s == a + [s[i]] + b + [s[last]];
    assert s[i := s[last]][..last] == a + [s[last]] + b;
    assert multiset(s) == multiset(a) + multiset{s[i]} + multiset(b) + multiset{s[last]};
  }

  /** `memberList[i] = memberList.back(); memberList.pop_back();` */
  function SwapList(s: seq<Entry>, i: nat): seq<Entry>
    requires i < |s|
  {
    var last := |s| - 1;
    if i < last then s[i := s[last]][..last] else s[..last]
  }

  /** The swap and pop shorten the list by one and keep the entries before
      `i`. */
  lemma SwapListShape(s: seq<Entry>, i: nat)
    requires i < |s|
    ensures |SwapList(s, i)| == |s| - 1
    ensures forall j :: 0 <= j < i ==> SwapList(s, i)[j] == s[j]
  {
  }

  /** The swap and pop remove exactly the entry at `i`. */
  lemma SwapRemoveMultiset(s: seq<Entry>, i: nat)
    requires i < |s|
    ensures multiset(SwapList(s, i)) == multiset(s) - multiset{s[i]}
  {
    var last := |s| - 1;
    if i < last {
      SwapInsideMultiset(s, i);
    } else {
      assert s == s[..last] + [s[last]];
      assert multiset(s) == multiset(s[..last]) + multiset{s[last]};
    }
  }

  /** Removing index `i`: forget its address, move the last entry into its
      slot and re-index it.  When `i` is the last index there is nothing to
      move; the source reads `memberList[i]` past the end in that case, and
      this guard is the correction. */
  function EvictAt(v: View, i: nat): (r: View)
    requires i < |v.list|
    ensures |r.list| == |v.list| - 1
    ensures multiset(r.list) == multiset(v.list) - multiset{v.list[i]}
    ensures forall j :: 0 <= j < i ==> r.list[j] == v.list[j]
    ensures Indexed(v) ==> Indexed(r)
    ensures Consistent(v) ==> Consistent(r)
  {
    SwapRemoveFacts(v, i);
    SwapRemove(v, i)
  }

  /** The swap-remove step itself. */
  function SwapRemove(v: View, i: nat): View
    requires i < |v.list|
  {
    var list := SwapList(v.list, i);
    var table := v.table - {AddrOf(v.list[i])};
    if i < |list| then View(list, table[AddrOf(list[i]) := i]) else View(list, table)
  }

  lemma SwapRemoveFacts(v: View, i: nat)
    requires i < |v.list|
    ensures var r := SwapRemove(v, i);
      && |r.list| == |v.list| - 1
      && multiset(r.list) == multiset(v.list) - multiset{v.list[i]}
      && (forall j :: 0 <= j < i ==> r.list[j] == v.list[j])
      && (Indexed(v) ==> Indexed(r))
      && (Consistent(v) ==> Consistent(r))
  {
    SwapListShape(v.list, i);
    SwapRemoveMultiset(v.list, i);
    SwapRemoveIndexed(v, i);
  }

  lemma SwapRemoveIndexed(v: View, i: nat)
    requires i < |v.list|
    ensures Indexed(v) ==> Indexed(SwapRemove(v, i))
    ensures Consistent(v) ==> Consistent(SwapRemove(v, i))
  {
    if i < |v.list| - 1 {
      EvictAtIndexed(v, i, SwapRemove(v, i));
    } else {
      EvictLastIndexed(v, SwapRemove(v, i));
    }
  }

  lemma EvictLastIndexed(v: View, r: View)
    requires |v.list| > 0
    requires r.list == v.list[..|v.list| - 1]
    requires r.table == v.table - {AddrOf(v.list[|v.list| - 1])}
    ensures Indexed(v) ==> Indexed(r)
    ensures Consistent(v) ==> Consistent(r)
  {
  }

  lemma EvictAtIndexed(v: View, i: nat, r: View)
    requires i < |v.list| - 1
    requires r.list == v.list[i := v.list[|v.list| - 1]][..|v.list| - 1]
    requires r.table == (v.table - {AddrOf(v.list[i])})[AddrOf(r.list[i]) := i]
    ensures Indexed(v) ==> Indexed(r)
    ensures Consistent(v) ==> Consistent(r)
  {
    var last := |v.list| - 1;
    if Consistent(v) {
      forall j | 0 <= j < |r.list|
        ensures AddrOf(r.list[j]) in r.table && r.table[AddrOf(r.list[j])] == j
      {
        if j != i {
          assert v.table[AddrOf(v.list[j])] == j;
          assert v.table[AddrOf(v.list[i])] == i;
          assert v.table[AddrOf(v.list[last])] == last;
        }
      }
    }
  }

  /** The loop body as written, for comparison: after `pop_back` it indexes
      `memberList[i]` even when `i` was the last index.  `None` stands for
      that out-of-bounds read. */
  function EvictAtAsWritten(v: View, i: nat): (r: Option<View>)
    requires i < |v.list|
    ensures r.None? <==> i == |v.list| - 1
  {
    var last := |v.list| - 1;
    var table := v.table - {AddrOf(v.list[i])};
    var list := v.list[i := v.list[last]][..last];
    if i >= |list| then None
    else Some(View(list, table[AddrOf(list[i]) := i]))
  }

  /** Evicting the last entry of a one-entry list: the source reads past the
      end of the vector; with the guard the list is simply emptied. */
  lemma EvictLastEntryReadsPastEnd()
    ensures var v := View([Entry(2, 0, 0, 0)], map[Addr(2, 0) := 0]);
      && EvictAtAsWritten(v, 0) == None
      && EvictAt(v, 0) == View([], map[])
  {
    var v := View([Entry(2, 0, 0, 0)], map[Addr(2, 0) := 0]);
    assert v.table - {Addr(2, 0)} == map[];
  }

  /** Away from the last index the guarded step is the source's step. */
  lemma EvictAtAgreesBeforeLast(v: View, i: nat)
    requires i < |v.list| - 1
    ensures EvictAtAsWritten(v, i) == Some(EvictAt(v, i))
  {
  }

  /** The eviction loop: exactly the entries older than TREMOVE are removed,
      every other entry is kept (with its multiplicity), and `nodetable`
      stays a valid index, and the exact inverse when it was one. */
  method Evict(v: View, now: int) returns (r: View)
    ensures forall e :: e in r.list ==> !Expired(e, now)
    ensures forall e :: !Expired(e, now) ==> multiset(r.list)[e] == multiset(v.list)[e]
    ensures Indexed(v) ==> Indexed(r)
    ensures Consistent(v) ==> Consistent(r)
  {
    r := v;
    var i := 0;
    while i < |r.list|
      invariant 0 <= i <= |r.list|
      invariant forall j :: 0 <= j < i ==> !Expired(r.list[j], now)
      invariant forall e :: !Expired(e, now) ==> multiset(r.list)[e] == multiset(v.list)[e]
      invariant Indexed(v) ==> Indexed(r)
      invariant Consistent(v) ==> Consistent(r)
      decreases |r.list| - i
    {
      if Expired(r.list[i], now) {
        r := EvictAt(r, i);
      } else {
        i := i + 1;
      }
    }
  }

  // ---------------------------------------------------------------------
  // Peer selection (`nodeLoopOps`, second half)

  /** The indices gossiped to: none for an empty list, the one entry of a
      one-entry list, otherwise `r1 mod n` and a second index obtained by
      adding an offset in [1, n-1], so the two always differ. */
  function PickPeers(n: nat, r1: nat, r2: nat): (picks: seq<nat>)
    ensures n == 0 ==> picks == []
    ensures n == 1 ==> picks == [0]
    ensures n >= 2 ==> |picks| == 2 && picks[0] == r1 % n
    ensures n >= 2 ==> picks[1] < n && picks[1] != picks[0]
  {
    if n == 0 then []
    else
      var node1 := r1 % n;
      if n == 1 then [node1]
      else
        var offset := r2 % (n - 1) + 1;
        assert 1 <= offset <= n - 1;
        ModBelowTwice(offset + node1, n);
        [node1, (offset + node1) % n]
  }

  /** Every index other than the first pick is the second pick for some draw
      of `rand()`: the second peer ranges over all the other entries. */
  lemma SecondPickCoversOthers(n: nat, r1: nat, j: nat)
    requires n >= 2 && j < n && j != r1 % n
    ensures exists r2: nat :: r2 < n - 1 && PickPeers(n, r1, r2)[1] == j
  {
    var node1 := r1 % n;
    var r2: nat := if j > node1 then j - node1 - 1 else j + n - node1 - 1;
    var sum := r2 + 1 + node1;
    assert sum == if j > node1 then j else j + n;
    ModBelowTwice(r2, n - 1);
    ModBelowTwice(sum, n);
    assert PickPeers(n, r1, r2)[1] == sum % n;
  }

  lemma ModBelowTwice(x: nat, n: nat)
    requires 0 < n && x < 2 * n
    ensures x % n == if x < n then x else x - n
  {
    if x >= n {
      assert x == n + (x - n);
    }
  }

  /** One copy of `payload` to the entry at each picked index. */
  function SendTo(list: seq<Entry>, picks: seq<nat>, payload: seq<byte>): (sent: seq<Packet>)
    requires forall k :: 0 <= k < |picks| ==> picks[k] < |list|
    ensures |sent| == |picks|
    ensures forall k :: 0 <= k < |sent| ==> sent[k].data == payload && sent[k].to == AddrOf(list[picks[k]])
    ensures forall k :: 0 <= k < |sent| ==> exists e :: e in list && AddrOf(e) == sent[k].to
  {
    if |picks| == 0 then []
    else
      assert list[picks[0]] in list;
      [Packet(AddrOf(list[picks[0]]), payload)] + SendTo(list, picks[1..], payload)
  }

  /** Under an exact index, different slots hold different addresses. */
  lemma DistinctSlotsDistinctAddrs(v: View, a: nat, b: nat)
    requires Consistent(v) && a < |v.list| && b < |v.list| && a != b
    ensures AddrOf(v.list[a]) != AddrOf(v.list[b])
  {
    assert v.table[AddrOf(v.list[a])] == a;
  }

  /** `nodeLoopOps`: evict, then send the (post-eviction) list to the
      picked peers. */
  method NodeLoopOps(m: Member, now: int, r1: nat, r2: nat) returns (o: Outcome)
    requires Indexed(m.AsView())
    ensures Indexed(o.member.AsView()) && SameNode(m, o.member)
    ensures Consistent(m.AsView()) ==> Consistent(o.member.AsView())
    ensures forall e :: e in o.member.list ==> !Expired(e, now)
    ensures forall e :: !Expired(e, now) ==> multiset(o.member.list)[e] == multiset(m.list)[e]
    ensures |o.sent| == if |o.member.list| < 2 then |o.member.list| else 2
    ensures Consistent(m.AsView()) && |o.sent| == 2 ==> o.sent[0].to != o.sent[1].to
    ensures forall k :: 0 <= k < |o.sent| ==> o.sent[k].data == SendML(o.member, now)
    ensures forall k :: 0 <= k < |o.sent| ==> exists e :: e in o.member.list && AddrOf(e) == o.sent[k].to
  {
    var v := Evict(m.AsView(), now);
    var m1 := m.(list := v.list, table := v.table);
    var picks := PickPeers(|m1.list|, r1, r2);
    var payload := SendML(m1, now);
    var sent := SendTo(m1.list, picks, payload);
    if |picks| == 2 && Consistent(m.AsView()) {
      DistinctSlotsDistinctAddrs(v, picks[0], picks[1]);
    }
    o := Outcome(m1, sent);
  }

  /** The outcome of one round of `nodeLoop`: answers to JOINREQs and the
      round's gossip. */
  datatype Round = Round(member: Member, replies: seq<Packet>, gossip: seq<Packet>)

  /** `nodeLoop`: a failed node does nothing; otherwise handle the queued
      messages, bump the heartbeat, and gossip only when in the group. */
  method NodeLoop(m: Member, inbox: seq<seq<byte>>, now: int, r1: nat, r2: nat) returns (r: Round)
    requires Indexed(m.AsView())
    ensures Indexed(r.member.AsView())
    ensures m.failed ==> r == Round(m, [], [])
    ensures !m.failed ==> r.member.heartbeat == WrapIncrement(m.heartbeat)
    ensures r.member.self == m.self && r.member.failed == m.failed
    ensures m.inGroup ==> r.member.inGroup
    ensures !m.failed ==> r.member.inGroup == (m.inGroup || HeartbeatIn(inbox))
    ensures !m.failed ==> r.replies == CheckMessages(m, inbox, now).sent
    ensures !r.member.inGroup ==> r.gossip == []
    ensures r.member.inGroup && !m.failed ==> |r.gossip| == if |r.member.list| < 2 then |r.member.list| else 2
  {
    if m.failed {
      return Round(m, [], []);
    }
    var checked := CheckMessages(m, inbox, now);
    var m1 := checked.member.(heartbeat := WrapIncrement(checked.member.heartbeat));
    if !m1.inGroup {
      return Round(m1, checked.sent, []);
    }
    var ops := NodeLoopOps(m1, now, r1, r2);
    r := Round(ops.member, checked.sent, ops.sent);
  }

  // ---------------------------------------------------------------------
  // Joining, end to end

  /** The introducer's side: a JOINREQ lists the sender with the heartbeat
      it sent and the current time, and is answered with the new list. */
  lemma JoinReqReceived(introducer: Member, sender: Addr, heartbeat: Int64, now: int)
    requires Indexed(introducer.AsView())
    ensures var answered := RecvCallBack(introducer, EncodeJoinReq(sender, heartbeat), now);
      && answered.member.list == introducer.list + [Entry(sender.id, sender.port, heartbeat, now)]
      && answered.sent == [Packet(sender, SendML(answered.member, now))]
  {
    JoinReqRoundTrip(sender, heartbeat);
  }

  /** The joiner's side: any `sendML` buffer from another node puts the
      receiver in the group, knowing the sender. */
  lemma GossipReceived(receiver: Member, sender: Member, now: int)
    requires Indexed(receiver.AsView()) && receiver.self != sender.self
    ensures var r := RecvCallBack(receiver, SendML(sender, now), now).member;
      r.inGroup && sender.self in r.table
  {
    SendMLDecodes(sender, now);
    var p := Pair(sender.heartbeat, sender.self);
    assert p in [p] + Gossiped(sender.list, now);
  }

  /** A fresh node joins through the introducer: its JOINREQ makes the
      introducer list it with the heartbeat it sent, the introducer's answer
      is a HEARTBEAT, and on receiving it the newcomer is in the group and
      knows the introducer. */
  lemma JoinHandshake(introducer: Member, joiner: Member, now: int)
    requires Indexed(introducer.AsView()) && Indexed(joiner.AsView())
    requires introducer.self != joiner.self
    ensures var req := IntroduceSelfToGroup(joiner, introducer.self).sent;
      && |req| == 1 && req[0].to == introducer.self
      && var answered := RecvCallBack(introducer, req[0].data, now);
      && answered.member.list == introducer.list + [Entry(joiner.self.id, joiner.self.port, joiner.heartbeat, now)]
      && |answered.sent| == 1 && answered.sent[0].to == joiner.self
      && var joined := RecvCallBack(joiner, answered.sent[0].data, now).member;
      && joined.inGroup
      && introducer.self in joined.table
  {
    JoinReqReceived(introducer, joiner.self, joiner.heartbeat, now);
    var answered := RecvCallBack(introducer, EncodeJoinReq(joiner.self, joiner.heartbeat), now);
    GossipReceived(joiner, answered.member, now);
  }
}

=== FILE: ring.dfy ===
/**
  The consistent-hashing ring and the replica locator (mp2/MP2Node.cpp,
  `updateRing`'s sort and `findNodes`).

  A ring node is an address with its position on the ring, `hashFunction`
  of the address modulo RING_SIZE.  The ring is the membership list plus the
  node itself, sorted by position; a key's replicas are the first node at or
  after the key's position and its two successors.
 */
module Ring {
  import opened Wire

  /** `RING_SIZE`: positions are `std::hash` values reduced modulo this. */
  const RingSize := 512

  /** `Node`: an address and its hash code. */
  datatype RingNode = RingNode(addr: Addr, hashCode: nat)

  /** `hashFunction`: the key's position, from an opaque string hash. */
  function Position(hash: nat): (pos: nat)
    ensures pos < RingSize
  {
    hash % RingSize
  }

  ghost predicate SortedByHash(ring: seq<RingNode>) {
    forall i, j :: 0 <= i < j < |ring| ==> ring[i].hashCode <= ring[j].hashCode
  }

  /** Inserts `x` before the first node with a larger hash code. */
  function Insert(x: RingNode, s: seq<RingNode>): (r: seq<RingNode>)
    ensures multiset(r) == multiset(s) + multiset{x}
  {
    if |s| == 0 then [x]
    else if x.hashCode <= s[0].hashCode then [x] + s
    else
      assert s == [s[0]] + s[1..];
      [s[0]] + Insert(x, s[1..])
  }

  lemma {:induction false} InsertSorted(x: RingNode, s: seq<RingNode>)
    requires SortedByHash(s)
    ensures SortedByHash(Insert(x, s))
  {
    if |s| > 0 && x.hashCode > s[0].hashCode {
      var rest := Insert(x, s[1..]);
      InsertSorted(x, s[1..]);
      forall k | 0 <= k < |rest|
        ensures s[0].hashCode <= rest[k].hashCode
      {
        assert rest[k] in multiset(rest);
        assert rest[k] == x || rest[k] in multiset(s[1..]);
      }
    }
  }

  /** `sort` by `Node::operator<`: the ring in increasing hash order.  Nodes
      with equal hash codes keep their list order. */
  function SortByHash(s: seq<RingNode>): (r: seq<RingNode>)
    ensures SortedByHash(r)
    ensures multiset(r) == multiset(s)
  {
    if |s| == 0 then []
    else
      assert s == [s[0]] + s[1..];
      InsertSorted(s[0], SortByHash(s[1..]));
      Insert(s[0], SortByHash(s[1..]))
  }

  /** The key falls before the first node or after the last one, so it wraps
      to the start of the ring. */
  predicate Wraps(ring: seq<RingNode>, pos: nat)
    requires |ring| > 0
  {
    pos <= ring[0].hashCode || pos > ring[|ring| - 1].hashCode
  }

  /** The scan of `findNodes`: the first index from `i` on whose hash code is
      at least `pos`. */
  function FirstAtLeast(ring: seq<RingNode>, pos: nat, i: nat): (j: nat)
    requires i < |ring| && pos <= ring[|ring| - 1].hashCode
    ensures i <= j < |ring| && pos <= ring[j].hashCode
    ensures forall k :: i <= k < j ==> ring[k].hashCode < pos
    decreases |ring| - i
  {
    if pos <= ring[i].hashCode then i else FirstAtLeast(ring, pos, i + 1)
  }

  /** The primary replica's index: 0 for a wrapping key, else the first index
      from 1 on whose hash code is at least the key's position. */
  function PrimaryIndex(ring: seq<RingNode>, pos: nat): (j: nat)
    requires |ring| >= 3
    ensures j < |ring|
    ensures Wraps(ring, pos) ==> j == 0
    ensures !Wraps(ring, pos) ==>
              && 1 <= j && pos <= ring[j].hashCode
              && forall k :: 1 <= k < j ==> ring[k].hashCode < pos
  {
    if Wraps(ring, pos) then 0 else FirstAtLeast(ring, pos, 1)
  }

  /** The slot `d` places clockwise of slot `j` on a ring of `n` nodes: the
      source's `(j + d) % n` (see `SlotIsMod`), written without the
      division. */
  function Slot(j: nat, d: nat, n: nat): (s: nat)
    requires j < n && d < n
    ensures s < n
  {
    if j + d < n then j + d else j + d - n
  }

  lemma SlotIsMod(j: nat, d: nat, n: nat)
    requires j < n && d < n
    ensures Slot(j, d, n) == (j + d) % n
  {
    if j + d >= n {
      assert j + d == 1 * n + (j + d - n);
    }
  }

  /** `findNodes`: nothing on a ring of fewer than three nodes, otherwise
      three replicas (which ones, `FindNodesPicks` states). */
  function FindNodes(ring: seq<RingNode>, pos: nat): (r: seq<RingNode>)
    ensures |ring| < 3 ==> r == []
    ensures |ring| >= 3 ==> |r| == 3
  {
    if |ring| < 3 then []
    else if Wraps(ring, pos) then [ring[0], ring[1], ring[2]]
    else
      var i := FirstAtLeast(ring, pos, 1);
      [ring[i], ring[Slot(i, 1, |ring|)], ring[Slot(i, 2, |ring|)]]
  }

  /** The replicas `findNodes` picks: the primary and its two successors
      around the ring, the first three nodes for a wrapping key. */
  lemma FindNodesPicks(ring: seq<RingNode>, pos: nat)
    requires |ring| >= 3
    ensures Wraps(ring, pos) ==> FindNodes(ring, pos) == ring[..3]
    ensures var j := PrimaryIndex(ring, pos);
      FindNodes(ring, pos) == [ring[j], ring[Slot(j, 1, |ring|)], ring[Slot(j, 2, |ring|)]]
    ensures var j := PrimaryIndex(ring, pos);
      FindNodes(ring, pos) == [ring[j], ring[(j + 1) % |ring|], ring[(j + 2) % |ring|]]
  {
    var j := PrimaryIndex(ring, pos);
    SlotIsMod(j, 1, |ring|);
    SlotIsMod(j, 2, |ring|);
  }

  /** The three replica slots are three different ring positions. */
  lemma ReplicaSlotsDistinct(n: nat, j: nat)
    requires n >= 3 && j < n
    ensures j != (j + 1) % n && j != (j + 2) % n && (j + 1) % n != (j + 2) % n
  {
    assert (j + 1) % n == if j + 1 < n then j + 1 else 0;
    assert (j + 2) % n == if j + 2 < n then j + 2 else j + 2 - n;
  }

  ghost predicate NoDuplicates(ring: seq<RingNode>) {
    forall i, j :: 0 <= i < j < |ring| ==> ring[i] != ring[j]
  }

  /** On a ring without repeated nodes the replicas are three different
      nodes. */
  lemma FindNodesDistinct(ring: seq<RingNode>, pos: nat)
    requires |ring| >= 3 && NoDuplicates(ring)
    ensures var r := FindNodes(ring, pos); r[0] != r[1] && r[0] != r[2] && r[1] != r[2]
  {
    var j := PrimaryIndex(ring, pos);
    var n := |ring|;
    FindNodesPicks(ring, pos);
    var a, b, c := j, Slot(j, 1, n), Slot(j, 2, n);
    assert ring[a] != ring[b] by { if a < b { } else { } }
    assert ring[a] != ring[c] by { if a < c { } else { } }
    assert ring[b] != ring[c] by { if b < c { } else { } }
  }

  /** The clockwise-successor reading of `findNodes`: for a key that does not
      wrap, the primary is the node just past the key's position, i.e. its
      predecessor lies strictly before the key. */
  lemma PrimaryIsSuccessor(ring: seq<RingNode>, pos: nat)
    requires |ring| >= 3 && !Wraps(ring, pos)
    ensures var j := PrimaryIndex(ring, pos);
      1 <= j && ring[j - 1].hashCode < pos <= ring[j].hashCode
  {
  }

  /** On a sorted ring that successor is unique: any index whose predecessor
      is below the key and which is itself at or above it is the primary.  So
      every node holding the same ring assigns a key the same replicas. */
  lemma PrimaryUnique(ring: seq<RingNode>, pos: nat, k: nat)
    requires |ring| >= 3 && SortedByHash(ring) && !Wraps(ring, pos)
    requires 1 <= k < |ring| && ring[k - 1].hashCode < pos <= ring[k].hashCode
    ensures PrimaryIndex(ring, pos) == k
  {
  }

  /** A wrapping key on a sorted ring lies at or before every node, or after
      every node: in both cases the first node is the first one clockwise. */
  lemma WrapMeansNoNodeBetween(ring: seq<RingNode>, pos: nat)
    requires |ring| >= 3 && SortedByHash(ring) && Wraps(ring, pos)
    ensures (forall k :: 0 <= k < |ring| ==> pos <= ring[k].hashCode)
         || (forall k :: 0 <= k < |ring| ==> ring[k].hashCode < pos)
  {
    if pos > ring[0].hashCode {
      assert pos > ring[|ring| - 1].hashCode;
      assert forall k :: 0 <= k < |ring| ==> ring[k].hashCode <= ring[|ring| - 1].hashCode;
    }
  }
}

=== FILE: store.dfy ===
/**
  The local key-value store of a DHT node: `ht`, a map from key to value, and
  the server-side operations on it (mp2/MP2Node.cpp, `createKeyValue`,
  `readKey`, `updateKeyValue`, `deletekey`).
 */
module Store {

  type Table = map<string, string>

  /** The table after an operation and the success flag it reports. */
  datatype Outcome = Outcome(table: Table, ok: bool)

  /** `createKeyValue`: `insert` never overwrites, and the call always
      reports success. */
  function CreateKeyValue(t: Table, key: string, value: string): (r: Outcome)
    ensures r.ok
    ensures key in r.table && r.table.Keys == t.Keys + {key}
    ensures key in t ==> r.table == t
    ensures key !in t ==> r.table[key] == value
    ensures forall k :: k in t ==> r.table[k] == t[k]
  {
    if key in t then Outcome(t, true) else Outcome(t[key := value], true)
  }

  /** `readKey`: the stored value, or the empty string on a miss. */
  function ReadKey(t: Table, key: string): (v: string)
    ensures key !in t ==> v == ""
    ensures key in t ==> v == t[key]
  {
    if key in t then t[key] else ""
  }

  /** `updateKeyValue`: writes only an existing key. */
  function UpdateKeyValue(t: Table, key: string, value: string): (r: Outcome)
    ensures r.ok <==> key in t
    ensures r.table.Keys == t.Keys
    ensures !r.ok ==> r.table == t
    ensures r.ok ==> r.table[key] == value
    ensures forall k :: k in t && k != key ==> r.table[k] == t[k]
  {
    if key in t then Outcome(t[key := value], true) else Outcome(t, false)
  }

  /** `deletekey`: removes only an existing key. */
  function DeleteKey(t: Table, key: string): (r: Outcome)
    ensures r.ok <==> key in t
    ensures r.table.Keys == t.Keys - {key}
    ensures !r.ok ==> r.table == t
    ensures forall k :: k in r.table ==> r.table[k] == t[k]
  {
    if key in t then Outcome(t - {key}, true) else Outcome(t, false)
  }

  /** A value created on a fresh key is what a later read returns, and a
      second create of the same key changes nothing. */
  lemma CreateThenRead(t: Table, key: string, value: string, other: string)
    requires key !in t
    ensures ReadKey(CreateKeyValue(t, key, value).table, key) == value
    ensures var t1 := CreateKeyValue(t, key, value).table;
      CreateKeyValue(t1, key, other).table == t1
  {
  }

  /** An update is seen by the next read exactly when the key existed; every
      other key reads as before. */
  lemma UpdateThenRead(t: Table, key: string, value: string, k: string)
    ensures ReadKey(UpdateKeyValue(t, key, value).table, key) == if key in t then value else ""
    ensures k != key ==> ReadKey(UpdateKeyValue(t, key, value).table, k) == ReadKey(t, k)
  {
  }

  /** After a delete the key reads as a miss and a second delete fails;
      every other key reads as before. */
  lemma DeleteThenRead(t: Table, key: string, k: string)
    ensures var t1 := DeleteKey(t, key).table;
      && ReadKey(t1, key) == ""
      && !DeleteKey(t1, key).ok
      && (k != key ==> ReadKey(t1, k) == ReadKey(t, k))
  {
  }
}

=== FILE: wire.dfy ===
/**
  The byte layout of the two membership messages (mp2/MP1Node.cpp).

  Every message starts with a `MessageHdr` holding the message type.  A
  JOINREQ then carries the sender's 6-byte address and its 8-byte heartbeat; a
  HEARTBEAT carries a run of fixed-width (heartbeat, address) pairs, the
  sender's own pair first.  An address is the node id (`int`) followed by the
  port (`short`).
 */
module Wire {
  import opened Fixed

  /** A node address: numeric id and port. */
  datatype Addr = Addr(id: Int32, port: Int16)

  datatype MsgType = JoinReq | JoinRep | Heartbeat

  datatype Option<T> = None | Some(value: T)

  /** `sizeof(MessageHdr)`: the header holds only the message-type enum. */
  const HeaderSize := 4
  const LongSize := 8
  /** `sizeof(Address)`: the address is a 6-byte array. */
  const AddrSize := 6
  /** One gossip pair: `sizeof(long) + sizeof(Address)`. */
  const PairSize := LongSize + AddrSize

  /** The enum values of `MsgTypes`, in declaration order. */
  function TypeCode(t: MsgType): Int32 {
    match t
    case JoinReq => 0
    case JoinRep => 1
    case Heartbeat => 2
  }

  function EncodeHeader(t: MsgType): (bs: seq<byte>)
    ensures |bs| == HeaderSize
  {
    EncodeInt32(TypeCode(t))
  }

  /** Reads the message type at the start of a buffer; a buffer shorter than
      the header, or an unknown code, has no type. */
  function DecodeHeader(data: seq<byte>): (t: Option<MsgType>)
    ensures t.Some? ==> |data| >= HeaderSize && TypeCode(t.value) == DecodeInt32(data[..HeaderSize])
  {
    if |data| < HeaderSize then None
    else
      var code := DecodeInt32(data[..HeaderSize]);
      if code == 0 then Some(JoinReq)
      else if code == 1 then Some(JoinRep)
      else if code == 2 then Some(Heartbeat)
      else None
  }

  lemma HeaderRoundTrip(t: MsgType, rest: seq<byte>)
    ensures DecodeHeader(EncodeHeader(t) + rest) == Some(t)
  {
    var data := EncodeHeader(t) + rest;
    assert data[..HeaderSize] == EncodeHeader(t);
    Int32RoundTrip(TypeCode(t));
  }

  function EncodeAddr(a: Addr): (bs: seq<byte>)
    ensures |bs| == AddrSize
  {
    EncodeInt32(a.id) + EncodeInt16(a.port)
  }

  function DecodeAddr(bs: seq<byte>): Addr
    requires |bs| == AddrSize
  {
    Addr(DecodeInt32(bs[..4]), DecodeInt16(bs[4..]))
  }

  lemma AddrRoundTrip(a: Addr)
    ensures DecodeAddr(EncodeAddr(a)) == a
  {
    var bs := EncodeAddr(a);
    assert bs[..4] == EncodeInt32(a.id);
    assert bs[4..] == EncodeInt16(a.port);
    Int32RoundTrip(a.id);
    Int16RoundTrip(a.port);
  }

  /** One gossip entry on the wire: heartbeat first, then the address. */
  datatype Pair = Pair(heartbeat: Int64, addr: Addr)

  function EncodePair(p: Pair): (bs: seq<byte>)
    ensures |bs| == PairSize
  {
    EncodeInt64(p.heartbeat) + EncodeAddr(p.addr)
  }

  function DecodePair(bs: seq<byte>): Pair
    requires |bs| == PairSize
  {
    Pair(DecodeInt64(bs[..LongSize]), DecodeAddr(bs[LongSize..]))
  }

  lemma PairRoundTrip(p: Pair)
    ensures DecodePair(EncodePair(p)) == p
  {
    var bs := EncodePair(p);
    assert bs[..LongSize] == EncodeInt64(p.heartbeat);
    assert bs[LongSize..] == EncodeAddr(p.addr);
    Int64RoundTrip(p.heartbeat);
    AddrRoundTrip(p.addr);
  }

  function EncodePairs(ps: seq<Pair>): (bs: seq<byte>)
    ensures |bs| == PairSize * |ps|
  {
    if |ps| == 0 then [] else EncodePair(ps[0]) + EncodePairs(ps[1..])
  }

  /** Removing one pair from a length does not change its remainder. */
  lemma PairSizeStep(n: nat)
    requires n >= PairSize
    ensures n % PairSize == (n - PairSize) % PairSize
    ensures PairSize * ((n - PairSize) / PairSize + 1) == n <==> n % PairSize == 0
  {
  }

  /** The walk of `updatetables`: take fixed-width pairs while bytes remain.
      A trailing fragment shorter than a pair has no decoding (the source would
      read past the end of the buffer). */
  function DecodePairs(bs: seq<byte>): (r: Option<seq<Pair>>)
    ensures r.Some? <==> |bs| % PairSize == 0
    ensures r.Some? ==> PairSize * |r.value| == |bs|
    decreases |bs|
  {
    if |bs| == 0 then Some([])
    else if |bs| < PairSize then None
    else
      PairSizeStep(|bs|);
      match DecodePairs(bs[PairSize..])
      case None => None
      case Some(rest) => Some([DecodePair(bs[..PairSize])] + rest)
  }

  lemma {:induction false} PairsRoundTrip(ps: seq<Pair>)
    ensures DecodePairs(EncodePairs(ps)) == Some(ps)
  {
    if |ps| > 0 {
      var bs := EncodePairs(ps);
      assert bs[..PairSize] == EncodePair(ps[0]);
      assert bs[PairSize..] == EncodePairs(ps[1..]);
      PairRoundTrip(ps[0]);
      PairsRoundTrip(ps[1..]);
      assert [ps[0]] + ps[1..] == ps;
    }
  }

  /** JOINREQ, as `introduceSelfToGroup` lays it out: header, the sender's
      address, then its heartbeat. */
  function EncodeJoinReq(sender: Addr, heartbeat: Int64): (bs: seq<byte>)
    ensures |bs| == HeaderSize + AddrSize + LongSize
  {
    EncodeHeader(JoinReq) + EncodeAddr(sender) + EncodeInt64(heartbeat)
  }

  /** The reads of `joinreq`: the address right after the header and the
      heartbeat right after the address. */
  function DecodeJoinReq(data: seq<byte>): Option<Pair>
  {
    if |data| < HeaderSize + AddrSize + LongSize then None
    else
      var a := DecodeAddr(data[HeaderSize..HeaderSize + AddrSize]);
      var hb := DecodeInt64(data[HeaderSize + AddrSize..HeaderSize + AddrSize + LongSize]);
      Some(Pair(hb, a))
  }

  lemma JoinReqRoundTrip(sender: Addr, heartbeat: Int64)
    ensures DecodeHeader(EncodeJoinReq(sender, heartbeat)) == Some(JoinReq)
    ensures DecodeJoinReq(EncodeJoinReq(sender, heartbeat)) == Some(Pair(heartbeat, sender))
  {
    var data := EncodeJoinReq(sender, heartbeat);
    HeaderRoundTrip(JoinReq, EncodeAddr(sender) + EncodeInt64(heartbeat));
    assert data == EncodeHeader(JoinReq) + (EncodeAddr(sender) + EncodeInt64(heartbeat));
    assert data[HeaderSize..HeaderSize + AddrSize] == EncodeAddr(sender);
    assert data[HeaderSize + AddrSize..HeaderSize + AddrSize + LongSize] == EncodeInt64(heartbeat);
    AddrRoundTrip(sender);
    Int64RoundTrip(heartbeat);
  }

  /** HEARTBEAT, as `sendML` lays it out: header, then the sender's own
      (heartbeat, address) pair, then one pair per gossiped entry. */
  function EncodeHeartbeat(sender: Pair, entries: seq<Pair>): (bs: seq<byte>)
    ensures |bs| == HeaderSize + PairSize * (|entries| + 1)
  {
    EncodeHeader(Heartbeat) + EncodePairs([sender] + entries)
  }

  /** The pairs `updatetables` walks, starting right after the header. */
  function DecodeHeartbeat(data: seq<byte>): Option<seq<Pair>>
  {
    if |data| < HeaderSize then None else DecodePairs(data[HeaderSize..])
  }

  lemma HeartbeatRoundTrip(sender: Pair, entries: seq<Pair>)
    ensures DecodeHeader(EncodeHeartbeat(sender, entries)) == Some(Heartbeat)
    ensures DecodeHeartbeat(EncodeHeartbeat(sender, entries)) == Some([sender] + entries)
  {
    var data := EncodeHeartbeat(sender, entries);
    HeaderRoundTrip(Heartbeat, EncodePairs([sender] + entries));
    assert data[HeaderSize..] == EncodePairs([sender] + entries);
    PairsRoundTrip([sender] + entries);
  }
}
